=== FILE: README.md ===
# DefTerm session model

A Dafny model of `InteractiveTerminal`, the browser terminal widget of the
`def` portfolio site (`src/scripts/terminal.js`). The widget is treated as a
pure, single-threaded state machine. A session holds:

- the command history and its cursor (`historyIndex`);
- the text of the input field;
- the scrollback, a sequence of abstract output lines;
- the current directory, which never leaves `~`;
- the fixed virtual file tree.

Each key the widget handles is a step function:

- Enter runs `executeCommand`;
- ArrowUp and ArrowDown run `navigateHistory`;
- Tab runs `autocomplete`.

Every registered command is a handler that either appends lines below the
scrollback or, for `clear`, replaces it. A small second machine models the
singleton lifecycle: the constructor, `getInstance`, `init` and `destroy`.

Modules, in dependency order:

- `Wrappers`: `Option`.
- `Strings`: `trim` with JavaScript's white-space set, and `split` on one character with its inverse `join`. Also `startsWith`, the default sort order and decimal numerals.
- `Output`: the `Line` record and `addOutput`, which strips outer line feeds, trims, and cuts at line feeds, dropping blank pieces.
- `FileSystem`: the fixture tree, `findDirectory`, `ls`, `renderTree` and `tree`.
- `Commands`: the 18-entry command table, prefix matching and every handler's output.
- `Session`: the session state, `executeCommand`, `navigateHistory`, `autocomplete` and `handleKeyDown`.
- `Lifecycle`: the singleton instance, the `isInitialized` flag, and the page's output pane and input field, which outlive any instance.

An output line is one of four things:

- the top line of a prompt echo, holding the directory;
- the bottom line of a prompt echo, holding the submitted line;
- a `Text` line carrying the text handed to `addOutput`, without the markup of the handler's own `<span>` wrapper, and the class it was given;
- an opaque `Canned` block for the fixed HTML pages.

On these points the model follows the code as written:

- A command line is cut at every single space (`split(" ")`, terminal.js:165), so `ls  projects` has an empty first argument and lists the root.
- The submitted line is recorded (terminal.js:146-148) before the handler runs, so `history` lists itself.
- ArrowUp and ArrowDown move one step through the history and clamp at its ends (terminal.js:219-231), so after `ls`, `tree`, ArrowUp, ArrowUp, ArrowDown the input shows `tree`.
- The directory key `nvim/` (terminal.js:34) gets a second `/` when drawn (terminal.js:530), so it shows as `nvim//`.
- `tree` puts `~/` before the path as typed (terminal.js:565), so `tree ./projects` has the header `~/./projects`.

## Model

| member | source | states |
|---|---|---|
| Strings.Trim | src/scripts/terminal.js:142 | the result has no white space at either end; it is empty exactly when the input is all white space; a text already trimmed is unchanged |
| Strings.TrimIsSlice | src/scripts/terminal.js:142 | the result is the part of the input between a white-space prefix and a white-space suffix; with `Trim`'s own contract this fixes the result |
| Strings.Split | src/scripts/terminal.js:165 | at least one piece; no piece holds the separator; joining the pieces with the separator gives back the input |
| Strings.SplitJoin | src/scripts/terminal.js:165 | cutting separator-free pieces joined by the separator gives back exactly those pieces (round trip with `Join`) |
| Strings.NatToString | src/scripts/terminal.js:601 | a non-empty run of decimal digits with no leading zero whose value is the number |
| Strings.LexLeTotal | src/scripts/terminal.js:331 | any two names are ordered one way or the other by the sort order |
| Strings.LexLeAntisymmetric | src/scripts/terminal.js:331 | two names each ordered before the other are equal |
| Strings.LexLeTransitive | src/scripts/terminal.js:331 | the sort order is transitive |
| Output.CleanTextIsTrim | src/scripts/terminal.js:187 | removing leading and trailing line feeds and then trimming is the same as trimming |
| Output.NonBlank | src/scripts/terminal.js:192 | keeps exactly the segments that are not blank, none added |
| Output.SplitOutput | src/scripts/terminal.js:183-208 | at least one line is produced and none holds a line feed; a trimmed text without a line feed gives exactly one line, itself, even when empty; otherwise the non-blank segments of the trimmed text, in order |
| Output.SpanPieces | src/scripts/terminal.js:189-203 | a span-wrapped message without a line feed is one piece, verbatim; with line feeds at least two lines come out: the first and the last segment, verbatim, and between them only non-blank segments of the message |
| Output.SpanWrapped | src/scripts/terminal.js:189-207 | a message wrapped in an opening and a closing tag shows as many lines as the message's pieces; the opening tag is glued to the first piece and the closing tag to the last, the pieces between are unchanged |
| Output.SpanLine | src/scripts/terminal.js:204-207 | a handler message without a line feed is shown as exactly one plain line holding the message |
| Output.SingleLine | src/scripts/terminal.js:204-207 | a trimmed, non-empty, one-line text appends exactly one line with the given class |
| Output.JoinedLines | src/scripts/terminal.js:189-203 | non-blank one-line texts joined by line feeds come back from `addOutput` as exactly those lines (round trip) |
| FileSystem.Lookup | src/scripts/terminal.js:304-307 | absent exactly when no entry has the key; otherwise the node of the first entry with that key |
| FileSystem.Insert | src/scripts/terminal.js:331 | inserting into a sorted sequence keeps it sorted and adds exactly the one entry |
| FileSystem.SortByName | src/scripts/terminal.js:331 | the result is sorted by name and is a permutation of the input |
| FileSystem.SortedFixed | src/scripts/terminal.js:331 | sorting an already sorted sequence changes nothing |
| FileSystem.FindDirectory | src/scripts/terminal.js:296-311 | `""`, `.` and `~` give the root; any other path, after one leading `./` is removed, succeeds exactly when its first entry with that key is a directory, whose contents are returned |
| FileSystem.FindDirectoryExact | src/scripts/terminal.js:296-311 | with distinct keys: found exactly for a root path or a top-level directory's key, with or without `./` |
| FileSystem.FindDirectoryOnRoot | src/scripts/terminal.js:296-311 | on the fixture exactly nine paths resolve: `""`, `.`, `~`, and `projects`, `dotfiles`, `scripts`, each with or without `./` |
| FileSystem.DotSlashForms | src/scripts/terminal.js:301 | a non-root path names a top-level directory after stripping exactly when it is the bare or `./` form |
| FileSystem.RootWellFormed | src/scripts/terminal.js:15-50 | every directory of the fixture has distinct keys and only one-line names |
| FileSystem.FoundWellFormed | src/scripts/terminal.js:296-311 | a directory found in a well-formed tree is itself well formed |
| FileSystem.LsRootPath | src/scripts/terminal.js:297-298 | a root path as first argument, the empty word included, lists the same as no argument |
| FileSystem.ListingSorted | src/scripts/terminal.js:331-351 | a non-empty directory is listed one line per entry, in sorted key order, directories with a `/` appended; the listed entries are a permutation of the directory |
| FileSystem.LsFailure | src/scripts/terminal.js:320-326 | an unresolved path prints exactly one "cannot access" line and no listing |
| FileSystem.LsEmpty | src/scripts/terminal.js:333-339 | an empty directory prints exactly the one "Directory is empty" line |
| FileSystem.LsProjects | src/scripts/terminal.js:313-352 | `ls projects` lists `inference-server/`, `rss-feed-aggregator/`, `skripsi-lab/` |
| FileSystem.LsPrints | src/scripts/terminal.js:313-352 | `ls` prints at least one line: the error, the empty-directory notice, or one line per entry |
| FileSystem.RenderTreeCount | src/scripts/terminal.js:519-546 | the drawing has one line per entry of the subtree, files and directories at every depth |
| FileSystem.RenderTreePrefixed | src/scripts/terminal.js:529-541 | every drawn line begins with the indentation it was given |
| FileSystem.RenderTreeHeads | src/scripts/terminal.js:524-534 | the lines drawn at this level are, in sorted order, `├── ` for every item but the last and `└── ` for the last, each followed by the displayed name |
| FileSystem.RenderTreeDrawable | src/scripts/terminal.js:519-546 | every drawn line is non-blank and holds no line feed, so `addOutput` keeps each one |
| FileSystem.TreeBlockLines | src/scripts/terminal.js:568-573 | the text `tree` hands to `addOutput` comes out as the opening token, the header, the drawing line by line, then the closing token: three lines more than the subtree's entries |
| FileSystem.TreeWhole | src/scripts/terminal.js:549-550 | `tree` with no argument draws the whole tree under the header `~` |
| FileSystem.TreeFound | src/scripts/terminal.js:552-573 | `tree` on a resolved path draws that directory under `~` for `.` and `~`, and under `~/` plus the path as typed otherwise |
| FileSystem.TreeEmptyDirectory | src/scripts/terminal.js:565-573 | `tree` on an empty directory shows the header between the wrappers and nothing else |
| FileSystem.TreeFailure | src/scripts/terminal.js:556-562 | an unresolved path prints exactly one "cannot access" line and no drawing |
| FileSystem.TreeDotfiles | src/scripts/terminal.js:519-573 | `tree ./dotfiles` has the header `~/./dotfiles` and draws `.zshrc`, `i3config`, `nvim//` and, below it, `init.lua` |
| FileSystem.TreePrints | src/scripts/terminal.js:548-574 | `tree` prints at least one line, whether or not the path resolves |
| Commands.FindIn | src/scripts/terminal.js:167 | a found command has the looked-up name and is in the table; nothing is found exactly when no command has that name |
| Commands.FindListed | src/scripts/terminal.js:52-71 | a name has a handler exactly when it is one of the 18 registered keys |
| Commands.FindName | src/scripts/terminal.js:52-71 | every command is found under its own name |
| Commands.KeysDistinct | src/scripts/terminal.js:52-71 | no two registered names share their length and first letter, so the keys are distinct |
| Commands.MatchingMembers | src/scripts/terminal.js:236 | the filtered names are exactly the given names that start with the prefix |
| Commands.Matches | src/scripts/terminal.js:235-236 | the matches are exactly the registered names that start with the prefix |
| Commands.MatchesEverything | src/scripts/terminal.js:235-236 | the empty prefix matches every name, in registration order |
| Commands.MatchesPw | src/scripts/terminal.js:235-236 | `pw` matches `pwd` alone |
| Commands.MatchesC | src/scripts/terminal.js:235-236 | `c` matches `cd`, `cat`, `contact`, `clear`, in that order |
| Commands.Repeat | src/scripts/terminal.js:471 | the rule is the given number of copies of one character |
| Commands.OnlyClearReplaces | src/scripts/terminal.js:459-460 | a handler empties the scrollback exactly when it is `clear` |
| Commands.FixedCommandsAsSpans | src/scripts/terminal.js:285-294 | `whoami`, `cd`, `skills` and `projects` append what one span-wrapped `addOutput` call per message appends |
| Commands.FixedMessagesAsSpans | src/scripts/terminal.js:368-381 | the fixed messages of `clear`, `cat`, `history` and `echo` are what span-wrapped `addOutput` calls append |
| Commands.PwdLine | src/scripts/terminal.js:361-366 | whatever its arguments, the history and the file tree, `pwd` prints one line: `/home/defha`, plus the directory when it is not `~` |
| Commands.EchoLine | src/scripts/terminal.js:576-586 | `echo` prints its arguments joined by single spaces on one line, or the `<br>` line when there are none |
| Commands.EchoWords | src/scripts/terminal.js:576-586 | the line `echo` prints, cut at single spaces, gives back its arguments |
| Commands.EchoRun | src/scripts/terminal.js:576-586 | `echo` given the words of a one-line text appends that text, unchanged, as one line |
| Commands.NumberedLines | src/scripts/terminal.js:599-604 | one line per entry from the given position on, each the 1-based position, two spaces, the entry |
| Commands.HistoryLines | src/scripts/terminal.js:588-605 | with no entries the one "No commands in history" line; otherwise line `i` is `i + 1`, two spaces, entry `i` |
| Commands.HistoryPrints | src/scripts/terminal.js:588-605 | `history` always prints at least one line, the empty-history notice included |
| Commands.EveryCommandPrints | src/scripts/terminal.js:52-71 | every registered command prints at least one line whatever its arguments, history, directory and tree; for `clear` these are the banner lines it leaves |
| Session.StripLineBreaks | src/scripts/terminal.js:142 | the result holds no line break; it keeps every other character of the input; a text without breaks is unchanged |
| Session.Type | src/scripts/terminal.js:142 | editing the input changes nothing else and leaves the field on one line |
| Session.Record | src/scripts/terminal.js:147-149 | the line is appended unless it equals the last entry; the result ends with the line and begins with the old history |
| Session.Submit | src/scripts/terminal.js:141-181 | a blank line changes nothing; otherwise the trimmed line is recorded, the cursor is set to the history's length, and the input is cleared |
| Session.Navigate | src/scripts/terminal.js:219-231 | the cursor moves by the direction, clamped to 0 and the length; at or past the length the input is empty, otherwise it is that entry |
| Session.Complete | src/scripts/terminal.js:233-243 | completion never touches the history, the cursor or the directory |
| Session.HandleKey | src/scripts/terminal.js:123-139 | keys other than Enter, ArrowUp, ArrowDown and Tab change nothing |
| Session.RecordValid | src/scripts/terminal.js:147-149 | recording a one-line entry keeps every entry one line and neighbouring entries distinct |
| Session.SubmitValid | src/scripts/terminal.js:141-150 | submitting keeps the session invariant: cursor in range, entries one-line and trimmed, neighbours distinct |
| Session.NavigateValid | src/scripts/terminal.js:219-231 | navigating keeps the session invariant |
| Session.CompleteValid | src/scripts/terminal.js:233-243 | completing keeps the session invariant |
| Session.HandleKeyValid | src/scripts/terminal.js:123-139 | every handled key keeps the session invariant |
| Session.SubmitEchoesPrompt | src/scripts/terminal.js:152-163 | unless the command is `clear`, the old scrollback stays and is followed by exactly the two prompt lines, the second holding the trimmed line |
| Session.SubmitUnknown | src/scripts/terminal.js:170-173 | an unregistered name adds exactly two lines after the prompt echo: `DefTerm: <name>: command not found` as an error, then the help hint |
| Session.SubmitPrints | src/scripts/terminal.js:141-181 | any submitted line whose first word is not `clear` adds the two prompt lines and at least one line of response below the old scrollback |
| Session.SubmitKnown | src/scripts/terminal.js:165-169 | a registered command other than `clear` appends its handler's output, run on the words after the first, below the prompt echo |
| Session.SubmitWords | src/scripts/terminal.js:165-169 | a line made of a registered name, a space and a text runs that command on the text cut at single spaces |
| Session.NameThenWords | src/scripts/terminal.js:165 | cutting a name, a space and a text at spaces gives the name followed by the text's own pieces |
| Session.SubmitNameAlone | src/scripts/terminal.js:165-169 | a command's name typed alone runs that command with no arguments |
| Session.SubmitClear | src/scripts/terminal.js:162-169 | `clear` leaves exactly the three banner lines; its own prompt echo is discarded too |
| Session.SubmitHistory | src/scripts/terminal.js:147-150 | `history` lists the history with the `history` line already recorded as its last entry, one numbered line per entry |
| Session.SubmitEcho | src/scripts/terminal.js:576-586 | `echo` followed by a text shows that text, exactly as typed, on one line below the prompt echo |
| Session.SubmitCatAlone | src/scripts/terminal.js:368-375 | `cat` typed alone shows the prompt echo and then the missing-operand error, nothing else |
| Session.SubmitCatOperand | src/scripts/terminal.js:377-380 | `cat` followed by anything shows the prompt echo of the line and then the "on development" notice, nothing else |
| Session.SubmitPwd | src/scripts/terminal.js:361-366 | in a session satisfying `Session.Valid`, `pwd` shows the prompt echo and then `/home/defha`, nothing else |
| Session.SubmitLsTwoSpaces | src/scripts/terminal.js:297 | `ls`, two spaces and anything lists the root: the empty first argument resolves to the root |
| Session.TypedLine | src/scripts/terminal.js:142 | a one-line text without outer white space, once typed, is exactly the line submitted |
| Session.UpThenDown | src/scripts/terminal.js:219-231 | ArrowUp then ArrowDown returns to the same cursor and shows the entry there, or an empty input past the end |
| Session.NavigateStopsAtEnds | src/scripts/terminal.js:222-228 | a second move past either boundary changes nothing more |
| Session.UpOnEmptyHistory | src/scripts/terminal.js:222-230 | with no history ArrowUp leaves the cursor at 0 and the input empty |
| Session.UpUpDown | src/scripts/terminal.js:219-231 | after `x` and then `y` are entered, ArrowUp, ArrowUp, ArrowDown shows `y`, then `x`, then `y` |
| Session.EnterTwo | src/scripts/terminal.js:147-150 | two different lines entered in a fresh session are both recorded, with the cursor past them |
| Session.SubmitTyped | src/scripts/terminal.js:141-150 | typing a one-line text and pressing Enter records it and clears the input |
| Session.RecordTwice | src/scripts/terminal.js:147-149 | recording the same line twice in a row is recording it once |
| Session.SubmitSameLineTwice | src/scripts/terminal.js:147-149 | a line entered twice in a row is recorded once |
| Session.RecordAlternating | src/scripts/terminal.js:147-149 | repeats that are not neighbours are kept: `x`, `y`, `x` adds three entries |
| Session.CompleteSingle | src/scripts/terminal.js:238-239 | with one match the input becomes the only registered name starting with the typed prefix, and nothing is printed |
| Session.CompleteMany | src/scripts/terminal.js:240-241 | with several matches the input stays and one informational line lists them, two spaces apart |
| Session.CompleteNone | src/scripts/terminal.js:233-243 | with no match nothing changes |
| Session.TabPw | src/scripts/terminal.js:233-239 | Tab after `pw` completes to `pwd` |
| Session.TabC | src/scripts/terminal.js:240-241 | Tab after `c` prints `cd  cat  contact  clear` and keeps the input |
| Session.TabOnEmpty | src/scripts/terminal.js:240-241 | Tab on an empty input lists all 18 names in registration order |
| Lifecycle.Init | src/scripts/terminal.js:76-100 | `init` attaches the listeners and sets the flag unless the flag is already set, in which case nothing changes |
| Lifecycle.Construct | src/scripts/terminal.js:2-74 | the constructor returns the registered instance if there is one; otherwise it registers a new, initialized terminal with an empty history, cursor -1 and directory `~`, showing the output pane and input field as the page holds them, since the constructor looks the elements up and clears neither |
| Lifecycle.GetInstance | src/scripts/terminal.js:636-641 | `getInstance` returns the registered instance when there is one, and always leaves registered the terminal it returns |
| Lifecycle.Destroy | src/scripts/terminal.js:643-646 | `destroy` detaches the object's own listeners and clears the registration but keeps the flag; nothing on the page is erased, so the pane and field keep what the registered terminal, if any, showed, whichever object is destroyed |
| Lifecycle.InitIdempotent | src/scripts/terminal.js:76-79 | calling `init` twice is calling it once |
| Lifecycle.StepsValid | src/scripts/terminal.js:2-12 | no step registers a terminal whose identity was never issued or whose session fails `Session.Valid`, and the field stays one line |
| Lifecycle.ConstructTwice | src/scripts/terminal.js:3-5 | constructing twice yields the same terminal and registers nothing new |
| Lifecycle.GetInstanceIsConstruct | src/scripts/terminal.js:636-641 | `getInstance` and the constructor agree |
| Lifecycle.ConstructAfterDestroy | src/scripts/terminal.js:643-646 | after `destroy`, constructing makes a different, listening terminal with an empty history and cursor -1 that still shows the destroyed one's output and typed text |
| Lifecycle.PageSurvives | src/scripts/terminal.js:643-646 | neither the constructor, `getInstance` nor `destroy` changes what the output pane and input field show, since none of them writes to those elements |
| Lifecycle.DestroyStale | src/scripts/terminal.js:643-646 | `destroy` on an object that is no longer registered still clears the registration, and the page keeps the live terminal's output and typed text |
| Lifecycle.InitAfterDestroy | src/scripts/terminal.js:76-79 | a destroyed terminal keeps its flag, so `init` on it attaches nothing |

## Left out

- Lifecycle.Destroy: `destroy` on an object that is no longer registered unregisters the live terminal, which keeps its keydown, click and resize listeners (terminal.js:102-113 removes only the destroyed object's own handlers); the world tracks only the registered terminal, so that terminal's listeners, and the second keydown handler a later construction adds beside them, are not modelled.
- Names inherited from `Object.prototype`: `this.commands[command]` (terminal.js:167) is also truthy for `constructor`, `toString`, `valueOf`, `hasOwnProperty`, `isPrototypeOf`, `propertyIsEnumerable`, `toLocaleString`, `__proto__` and the `__define…`/`__lookup…` accessors. Calling those appends nothing, or throws before the input is cleared at line 175 (`__proto__` does). The model treats the table as closed over the 18 own keys, so these names get the "command not found" lines.
- Canned pages: `help`, `about`, `contact`, `theme` and `neofetch` (terminal.js:246-282, 383-422, 438-457, 494-517, 607-633) each hand one multi-line HTML text to `addOutput`, which appends one line per non-blank segment. The model appends one opaque `Canned` line per page, because the pages' text carries no behaviour.
- Markup: every text reaches the page through `innerHTML` (terminal.js:155-160, 195-205), so a user's `echo <b>x</b>` is rendered as HTML. The model keeps texts as raw strings, drops each handler's own `<span>` wrapper and styles, and shows `tree`'s wrapper `<div style=…>` and `</div>` as the tokens `<div>` and `</div>`. The `<br>` that `echo` prints alone stays a literal token. The `<br>` ending `tree`'s header and each drawn tree line (terminal.js:533, 569) is dropped: `FileSystem.Terminated` ends those lines with a line feed only.
- Clocks: `date`, `uptime` and the uptime line of `neofetch` read the wall clock and `performance.now()` as floating point (terminal.js:476-517). Each appends one opaque `Canned` line.
- The DOM and timing: listener binding and unbinding (`cleanup`), focus, `scrollToBottom`, the `setTimeout` callbacks and `console.log` (terminal.js:81-121, 176-180, 210-217). The lifecycle keeps one `listening` flag for the listeners.
- Module bootstrapping: `initTerminal`, `terminalInitialized` and the `DOMContentLoaded` and `load` hooks (terminal.js:649-682).
- Characters: JavaScript strings are UTF-16 code units, while Dafny's `char` is a Unicode scalar value. `trim`, `startsWith`, `split` and the default sort compare code units, so for characters outside the Basic Multilingual Plane the model's order and lengths can differ.
- Session.Type: the input field is a single-line text control. The model removes line feeds and carriage returns from typed text, an assumption about the page rather than about this file.
- Session.Valid: the current directory is fixed at `~`, because no handler ever changes it; `cd` is a stub.
- Commands.Run: `cd`, `skills` and `projects` only print their "on development" notice. Their output is proved equal to one span-wrapped `addOutput` call per message in `Commands.FixedCommandsAsSpans`; there is no behaviour beyond it to relate them to.

=== FILE: commands.dfy ===
/**
  The command table of the terminal and what each handler appends to the
  scrollback. Handlers are pure here: each yields an `Effect` the session
  applies, and the only state they read is the history and the current
  directory.
 */
module Commands {
  import opened Strings
  import opened Wrappers
  import opened Output
  import FileSystem

  datatype Command =
    | Help | Whoami | Ls | Cd | Pwd | Cat | About | Skills | Projects
    | Contact | Clear | Date | Uptime | Neofetch | Tree | Echo | History | Theme

  /** The key a command is registered under. */
  function Name(c: Command): string {
    match c
    case Help => "help"
    case Whoami => "whoami"
    case Ls => "ls"
    case Cd => "cd"
    case Pwd => "pwd"
    case Cat => "cat"
    case About => "about"
    case Skills => "skills"
    case Projects => "projects"
    case Contact => "contact"
    case Clear => "clear"
    case Date => "date"
    case Uptime => "uptime"
    case Neofetch => "neofetch"
    case Tree => "tree"
    case Echo => "echo"
    case History => "history"
    case Theme => "theme"
  }

  /** The commands in registration order, which is the order of the command object's keys. */
  const Table: seq<Command> := [
    Help, Whoami, Ls, Cd, Pwd, Cat, About, Skills, Projects,
    Contact, Clear, Date, Uptime, Neofetch, Tree, Echo, History, Theme
  ]

  /** `Object.keys(this.commands)`: the registered names, in registration order. */
  const CommandNames: seq<string> := [
    "help", "whoami", "ls", "cd", "pwd", "cat", "about", "skills", "projects",
    "contact", "clear", "date", "uptime", "neofetch", "tree", "echo", "history", "theme"
  ]

  /** The names are the table's commands' names, position by position. */
  lemma NamesOfTable()
    ensures |CommandNames| == |Table| == 18
    ensures forall i :: 0 <= i < |Table| ==> CommandNames[i] == Name(Table[i])
  {
  }

  /** The first command in `table` registered under `name`. */
  function FindIn(table: seq<Command>, name: string): (r: Option<Command>)
    ensures r.Some? ==> r.value in table && Name(r.value) == name
    ensures r.None? <==> forall c :: c in table ==> Name(c) != name
  {
    if table == [] then None
    else if Name(table[0]) == name then Some(table[0])
    else FindIn(table[1..], name)
  }

  /** `this.commands[name]`: the handler registered under `name`, if any. */
  function Find(name: string): (r: Option<Command>)
    ensures r.Some? ==> Name(r.value) == name
  {
    FindIn(Table, name)
  }

  /** A run of lower-case ASCII letters. */
  predicate IsLowerWord(n: string) {
    n != [] && forall k :: 0 <= k < |n| ==> 'a' <= n[k] <= 'z'
  }

  /** Every command name is one lower-case word. */
  lemma NameIsWord(c: Command)
    ensures IsLowerWord(Name(c))
  {
  }

  /** In a table listed alongside its names, the search succeeds exactly on the listed names. */
  lemma FindInListed(table: seq<Command>, names: seq<string>, name: string)
    requires |names| == |table|
    requires forall i :: 0 <= i < |table| ==> names[i] == Name(table[i])
    ensures FindIn(table, name).Some? <==> name in names
  {
    var r := FindIn(table, name);
    if r.Some? {
      var i :| 0 <= i < |table| && table[i] == r.value;
      assert names[i] == name;
    }
    if name in names {
      var i :| 0 <= i < |names| && names[i] == name;
      assert table[i] in table;
    }
  }

  /** A name has a handler exactly when it is one of the registered keys. */
  lemma FindListed(name: string)
    ensures Find(name).Some? <==> name in CommandNames
  {
    NamesOfTable();
    FindInListed(Table, CommandNames, name);
  }

  /**
    A name's length and first letter (a blank for the empty name); no two
    registered names share one (`KeysDistinct`).
   */
  function Key(name: string): (nat, char) {
    (|name|, if name == [] then ' ' else name[0])
  }

  /** The position of a command in the table. */
  function Position(c: Command): (i: nat)
    ensures i < |Table| && Table[i] == c
  {
    match c
    case Help => 0
    case Whoami => 1
    case Ls => 2
    case Cd => 3
    case Pwd => 4
    case Cat => 5
    case About => 6
    case Skills => 7
    case Projects => 8
    case Contact => 9
    case Clear => 10
    case Date => 11
    case Uptime => 12
    case Neofetch => 13
    case Tree => 14
    case Echo => 15
    case History => 16
    case Theme => 17
  }

  /** Length and first letter tell the registered names apart. */
  lemma KeysDistinct(i: nat, j: nat)
    requires i < j < |CommandNames|
    ensures Key(CommandNames[i]) != Key(CommandNames[j])
  {
    var keys := [
      (4, 'h'), (6, 'w'), (2, 'l'), (2, 'c'), (3, 'p'), (3, 'c'), (5, 'a'), (6, 's'), (8, 'p'),
      (7, 'c'), (5, 'c'), (4, 'd'), (6, 'u'), (8, 'n'), (4, 't'), (4, 'e'), (7, 'h'), (5, 't')
    ];
    assert Key(CommandNames[i]) == keys[i];
    assert Key(CommandNames[j]) == keys[j];
    assert keys[i] != keys[j];
  }

  /** Every command is found under its own name: no name shadows another. */
  lemma FindName(c: Command)
    ensures Find(Name(c)) == Some(c)
  {
    var i := Position(c);
    NamesOfTable();
    forall j | 0 <= j < i ensures Key(Name(Table[j])) != Key(Name(c)) {
      KeysDistinct(j, i);
    }
    FindFirst(Table, i, Name(c));
  }

  lemma {:induction false} FindFirst(table: seq<Command>, i: nat, name: string)
    requires i < |table| && Name(table[i]) == name
    requires forall j :: 0 <= j < i ==> Key(Name(table[j])) != Key(name)
    ensures FindIn(table, name) == Some(table[i])
  {
    if i > 0 {
      FindFirst(table[1..], i - 1, name);
    }
  }

  // ---------------------------------------------------------------------------
  // Autocompletion

  /** The names in `names` that start with `prefix`, in their order. */
  function Matching(names: seq<string>, prefix: string): (r: seq<string>)
    ensures |r| <= |names|
  {
    if names == [] then []
    else (if StartsWith(names[0], prefix) then [names[0]] else []) + Matching(names[1..], prefix)
  }

  /** The names kept are exactly those that start with the prefix. */
  lemma {:induction false} MatchingMembers(names: seq<string>, prefix: string)
    ensures forall x :: x in Matching(names, prefix) <==> x in names && StartsWith(x, prefix)
  {
    if names != [] {
      MatchingMembers(names[1..], prefix);
      assert names == [names[0]] + names[1..];
    }
  }

  /** Filtering distributes over concatenation: matches keep the order of the names. */
  lemma {:induction false} MatchingAppend(a: seq<string>, b: seq<string>, prefix: string)
    ensures Matching(a + b, prefix) == Matching(a, prefix) + Matching(b, prefix)
  {
    if a == [] {
      assert a + b == b;
    } else {
      var ab := a + b;
      assert ab[0] == a[0] && ab[1..] == a[1..] + b;
      MatchingAppend(a[1..], b, prefix);
      assert Matching(ab, prefix) == Matching([a[0]], prefix) + Matching(ab[1..], prefix);
      assert Matching(a, prefix) == Matching([a[0]], prefix) + Matching(a[1..], prefix);
    }
  }

  /** Every name starts with the empty prefix. */
  lemma {:induction false} MatchingEmpty(names: seq<string>)
    ensures Matching(names, "") == names
  {
    if names != [] {
      assert names[0][..0] == "";
      MatchingEmpty(names[1..]);
    }
  }

  /** A name that differs from the prefix at some position does not start with it. */
  lemma Mismatch(name: string, prefix: string, k: nat)
    requires k < |name| && k < |prefix| && name[k] != prefix[k]
    ensures !StartsWith(name, prefix)
  {
    if |prefix| <= |name| {
      assert name[..|prefix|][k] == name[k];
    }
  }

  /** A run of names none of which starts with the prefix contributes nothing. */
  lemma MatchingNone(names: seq<string>, prefix: string)
    requires forall j :: 0 <= j < |names| ==> !StartsWith(names[j], prefix)
    ensures Matching(names, prefix) == []
  {
    MatchingMembers(names, prefix);
  }

  /** The command names `autocomplete` offers for `prefix`. */
  function Matches(prefix: string): (r: seq<string>)
    ensures forall x :: x in r <==> x in CommandNames && StartsWith(x, prefix)
  {
    MatchingMembers(CommandNames, prefix);
    Matching(CommandNames, prefix)
  }

  /** Every registered name is one lower-case word. */
  lemma ListedIsWord(x: string)
    requires x in CommandNames
    ensures IsLowerWord(x)
  {
    FindListed(x);
    NameIsWord(Find(x).value);
  }

  // ---------------------------------------------------------------------------
  // Handlers

  /** What running a handler does to the scrollback. */
  datatype Effect =
    | Append(lines: seq<Line>)   // lines added below what is there
    | Replace(lines: seq<Line>)  // the scrollback emptied, then these lines added

  function Apply(e: Effect, scrollback: seq<Line>): seq<Line> {
    match e
    case Append(lines) => scrollback + lines
    case Replace(lines) => lines
  }

  const HelpHint: string := "Type 'help' to see available commands"
  const Banner: string := "DefTerm"
  /** The horizontal rule under the banner: 49 box-drawing characters. */
  const Rule: string := Repeat('─', 49)
  const Owner: string := "Defhanaya"
  const Tagline: string := "Backend Developer | GPU Enthusiast" + " | Linux & Vim for lyfe<3"
  const Home: string := "/home/defha"
  const MissingOperand: string := "cat: missing file operand"
  const NoHistory: string := "No commands in history"
  const LineBreak: string := "<br>"

  /** `n` copies of `c`. */
  function Repeat(c: char, n: nat): (r: string)
    ensures |r| == n
    ensures forall i :: 0 <= i < n ==> r[i] == c
  {
    if n == 0 then "" else [c] + Repeat(c, n - 1)
  }

  /**
    A fixed message of a handler as the scrollback shows it: one plain line.
    None of these messages holds a line feed, so this is what `addOutput`
    makes of it once wrapped in a span (`FixedCommandsAsSpans`, `FixedMessagesAsSpans`).
   */
  function Say(message: string): seq<Line> {
    [Text(Plain, message)]
  }

  /** The notice of a command that is not implemented yet. */
  function InDevelopment(command: string): string {
    command + ": this command is on development"
  }

  /** What `clear` leaves on screen. */
  function ClearScreen(): seq<Line> {
    Say(Banner) + Say(HelpHint) + Say(Rule)
  }

  /** `pwd`: the home directory, followed by the current directory unless it is `~`. */
  function WorkingDirectory(directory: string): string {
    Home + (if directory == "~" then "" else directory)
  }

  /** `cat(args)`: nothing can be read yet; without an operand it says so. */
  function CatOutput(args: seq<string>): seq<Line> {
    if |args| == 0 then Say(MissingOperand) else Say(InDevelopment("cat"))
  }

  /** `echo(args)`: the arguments joined by single spaces, or a line break without arguments. */
  function EchoOutput(args: seq<string>): seq<Line> {
    if |args| > 0 then AddSpan(Join(args, " ")) else Say(LineBreak)
  }

  /** One `history` line: the 1-based position, two spaces, the command. */
  function NumberedEntry(i: nat, command: string): string {
    NatToString(i + 1) + "  " + command
  }

  /** The `history` lines for the entries from position `from` on. */
  function Numbered(history: seq<string>, from: nat): seq<Line>
    decreases |history| - from
  {
    if from >= |history| then []
    else AddSpan(NumberedEntry(from, history[from])) + Numbered(history, from + 1)
  }

  /** `showHistory()`. */
  function HistoryOutput(history: seq<string>): seq<Line> {
    if |history| == 0 then Say(NoHistory) else Numbered(history, 0)
  }

  /**
    The effect of the handler registered for `c`, given the arguments, the
    history (which already holds the current command), the current
    directory and the file tree `ls` and `tree` read.
   */
  function Run(c: Command, args: seq<string>, history: seq<string>, directory: string,
               files: seq<FileSystem.Entry>): Effect {
    match c
    case Help => Append([Canned(HelpBlock)])
    case Whoami => Append(Say(Owner) + Say(Tagline))
    case Ls => Append(FileSystem.Ls(files, args))
    case Cd => Append(Say(InDevelopment("cd")))
    case Pwd => Append(AddSpan(WorkingDirectory(directory)))
    case Cat => Append(CatOutput(args))
    case About => Append([Canned(AboutBlock)])
    case Skills => Append(Say(InDevelopment("skills")))
    case Projects => Append(Say(InDevelopment("projects")))
    case Contact => Append([Canned(ContactBlock)])
    case Clear => Replace(ClearScreen())
    case Date => Append([Canned(DateBlock)])
    case Uptime => Append([Canned(UptimeBlock)])
    case Neofetch => Append([Canned(NeofetchBlock)])
    case Tree => Append(FileSystem.Tree(files, args))
    case Echo => Append(EchoOutput(args))
    case History => Append(HistoryOutput(history))
    case Theme => Append([Canned(ThemeBlock)])
  }

  // ---------------------------------------------------------------------------
  // Properties of the handlers

  /** Only `clear` empties the scrollback; every other handler appends below it. */
  lemma OnlyClearReplaces(c: Command, args: seq<string>, history: seq<string>, directory: string,
                          files: seq<FileSystem.Entry>)
    ensures Run(c, args, history, directory, files).Replace? <==> c == Clear
  {
  }

  /** `history` prints something: the notice, or one line per entry. */
  lemma HistoryPrints(history: seq<string>)
    ensures |HistoryOutput(history)| >= 1
  {
    if |history| > 0 {
      AddSpanPrints(NumberedEntry(0, history[0]));
    }
  }

  /**
    Every registered command prints at least one line, whatever its
    arguments, the history, the directory and the file tree; for `clear`
    these are the banner it leaves.
   */
  lemma EveryCommandPrints(c: Command, args: seq<string>, history: seq<string>, directory: string,
                           files: seq<FileSystem.Entry>)
    ensures |Run(c, args, history, directory, files).lines| >= 1
  {
    match c
    case Ls =>
      RunLs(args, history, directory, files);
      FileSystem.LsPrints(files, args);
    case Tree =>
      FileSystem.TreePrints(files, args);
    case Echo =>
      RunEcho(args, history, directory, files);
      AddSpanPrints(Join(args, " "));
    case History =>
      HistoryPrints(history);
    case Pwd =>
      AddSpanPrints(WorkingDirectory(directory));
    case _ =>
  }

  /** A message without a line feed, wrapped in a span, is shown as `Say` shows it. */
  lemma SayIsSpan(message: string)
    requires '\n' !in message
    ensures Say(message) == AddSpan(message)
  {
    SpanLine(message);
  }

  /** The lines of `whoami` hold no line feed. */
  lemma IntroductionOneLine()
    ensures '\n' !in Owner && '\n' !in Tagline
  {
    assert '\n' !in "Backend Developer | GPU Enthusiast";
    assert '\n' !in " | Linux & Vim for lyfe<3";
  }

  /** The lines of the banner `clear` writes hold no line feed. */
  lemma BannerOneLine()
    ensures '\n' !in Banner && '\n' !in HelpHint && '\n' !in Rule
  {
  }

  /** The notices of `cat`, `echo` and `history` hold no line feed. */
  lemma NoticesOneLine()
    ensures '\n' !in MissingOperand && '\n' !in NoHistory && '\n' !in LineBreak
  {
  }

  /** The notice of an unfinished command holds a line feed only if the command's name does. */
  lemma InDevelopmentOneLine(name: string)
    ensures '\n' !in InDevelopment(name) <==> '\n' !in name
  {
    assert '\n' !in ": this command is on development";
  }

  /**
    The commands whose whole output is fixed, written as the source writes
    them: one span-wrapped `addOutput` call per message.
   */
  lemma FixedCommandsAsSpans(args: seq<string>, history: seq<string>, directory: string,
                             files: seq<FileSystem.Entry>)
    ensures Run(Whoami, args, history, directory, files) == Append(AddSpan(Owner) + AddSpan(Tagline))
    ensures Run(Cd, args, history, directory, files) == Append(AddSpan(InDevelopment("cd")))
    ensures Run(Skills, args, history, directory, files) == Append(AddSpan(InDevelopment("skills")))
    ensures Run(Projects, args, history, directory, files) == Append(AddSpan(InDevelopment("projects")))
  {
    IntroductionOneLine();
    InDevelopmentOneLine("cd");
    InDevelopmentOneLine("skills");
    InDevelopmentOneLine("projects");
    SayIsSpan(Owner);
    SayIsSpan(Tagline);
    SayIsSpan(InDevelopment("cd"));
    SayIsSpan(InDevelopment("skills"));
    SayIsSpan(InDevelopment("projects"));
  }

  /** The fixed messages of `clear`, `cat`, `history` and `echo`, as span-wrapped `addOutput` calls. */
  lemma FixedMessagesAsSpans(args: seq<string>, history: seq<string>)
    ensures ClearScreen() == AddSpan(Banner) + AddSpan(HelpHint) + AddSpan(Rule)
    ensures CatOutput(args) == AddSpan(if |args| == 0 then MissingOperand else InDevelopment("cat"))
    ensures |history| == 0 ==> HistoryOutput(history) == AddSpan(NoHistory)
    ensures |args| == 0 ==> EchoOutput(args) == AddSpan(LineBreak)
  {
    BannerOneLine();
    NoticesOneLine();
    InDevelopmentOneLine("cat");
    SayIsSpan(Banner);
    SayIsSpan(HelpHint);
    SayIsSpan(Rule);
    SayIsSpan(MissingOperand);
    SayIsSpan(InDevelopment("cat"));
    SayIsSpan(NoHistory);
    SayIsSpan(LineBreak);
  }

  /** `clear` leaves exactly the three banner lines, whatever was on screen. */
  lemma ClearLeavesBanner(scrollback: seq<Line>, args: seq<string>, history: seq<string>, directory: string,
                          files: seq<FileSystem.Entry>)
    ensures Apply(Run(Clear, args, history, directory, files), scrollback)
      == [Text(Plain, Banner), Text(Plain, HelpHint), Text(Plain, Rule)]
  {
    assert Run(Clear, args, history, directory, files) == Replace(ClearScreen());
  }

  /** `pwd` ignores its arguments and prints the home path, followed by the directory when it is not `~`. */
  lemma PwdLine(args: seq<string>, history: seq<string>, directory: string, files: seq<FileSystem.Entry>)
    requires '\n' !in directory
    ensures Run(Pwd, args, history, directory, files) == Append([Text(Plain, WorkingDirectory(directory))])
  {
    assert Run(Pwd, args, history, directory, files) == Append(AddSpan(WorkingDirectory(directory)));
    SpanLine(WorkingDirectory(directory));
  }

  /** The dispatch of `cat`, stated apart from any facts about its arguments. */
  lemma RunCat(args: seq<string>, history: seq<string>, directory: string, files: seq<FileSystem.Entry>)
    ensures Run(Cat, args, history, directory, files)
      == Append([Text(Plain, if |args| == 0 then MissingOperand else InDevelopment("cat"))])
  {
  }

  /** `echo` given the words of a one-line text shows that text unchanged. */
  lemma EchoRun(t: string, history: seq<string>, directory: string, files: seq<FileSystem.Entry>)
    requires '\n' !in t
    ensures Run(Echo, Split(t, ' '), history, directory, files) == Append([Text(Plain, t)])
  {
    var words := Split(t, ' ');
    assert EchoOutput(words) == [Text(Plain, t)] by {
      SplitKeepsOut(t, ' ', '\n');
      EchoLine(words);
    }
    RunEcho(words, history, directory, files);
  }

  /** The dispatch of `ls`, stated apart from any facts about its arguments. */
  lemma RunLs(args: seq<string>, history: seq<string>, directory: string, files: seq<FileSystem.Entry>)
    ensures Run(Ls, args, history, directory, files) == Append(FileSystem.Ls(files, args))
  {
  }

  /** The dispatch of `echo`, stated apart from any facts about its arguments. */
  lemma RunEcho(args: seq<string>, history: seq<string>, directory: string, files: seq<FileSystem.Entry>)
    ensures Run(Echo, args, history, directory, files) == Append(EchoOutput(args))
  {
  }

  /** `echo` prints its arguments on one line, separated by single spaces. */
  lemma EchoLine(args: seq<string>)
    requires forall i :: 0 <= i < |args| ==> '\n' !in args[i]
    ensures EchoOutput(args) == [Text(Plain, if |args| > 0 then Join(args, " ") else LineBreak)]
  {
    JoinNoNewline(args, " ");
    SpanLine(Join(args, " "));
  }

  /** The words `echo` is given come back out of its line when split at the spaces. */
  lemma EchoWords(args: seq<string>)
    requires |args| > 0
    requires forall i :: 0 <= i < |args| ==> ' ' !in args[i] && '\n' !in args[i]
    ensures exists t :: EchoOutput(args) == [Text(Plain, t)] && Split(t, ' ') == args
  {
    EchoLine(args);
    SplitJoin(args, ' ');
    assert EchoOutput(args) == [Text(Plain, Join(args, " "))];
  }

  lemma NumberedEntryOneLine(i: nat, command: string)
    requires '\n' !in command
    ensures '\n' !in NumberedEntry(i, command)
  {
    var d := NatToString(i + 1);
    assert forall k :: 0 <= k < |d| ==> d[k] != '\n';
  }

  /** `history` prints one numbered line per entry, in order. */
  lemma {:induction false} NumberedLines(history: seq<string>, from: nat)
    requires from <= |history|
    requires forall i :: 0 <= i < |history| ==> '\n' !in history[i]
    decreases |history| - from
    ensures |Numbered(history, from)| == |history| - from
    ensures forall k :: 0 <= k < |history| - from ==>
      Numbered(history, from)[k] == Text(Plain, NumberedEntry(from + k, history[from + k]))
  {
    if from < |history| {
      var head := NumberedEntry(from, history[from]);
      NumberedEntryOneLine(from, history[from]);
      SpanLine(head);
      NumberedLines(history, from + 1);
      assert Numbered(history, from) == [Text(Plain, head)] + Numbered(history, from + 1);
    }
  }

  /**
    The `history` listing: line `i` is the decimal numeral of `i + 1`, two
    spaces and entry `i`; with no entries there is the one notice.
   */
  lemma HistoryLines(history: seq<string>)
    requires forall i :: 0 <= i < |history| ==> '\n' !in history[i]
    ensures |history| == 0 ==> HistoryOutput(history) == [Text(Plain, NoHistory)]
    ensures |history| > 0 ==> |HistoryOutput(history)| == |history|
    ensures forall i :: 0 <= i < |history| && |history| > 0 ==>
      HistoryOutput(history)[i] == Text(Plain, NatToString(i + 1) + "  " + history[i])
  {
    if |history| == 0 {
    } else {
      NumberedLines(history, 0);
      assert HistoryOutput(history) == Numbered(history, 0);
      forall i | 0 <= i < |history|
        ensures HistoryOutput(history)[i] == Text(Plain, NatToString(i + 1) + "  " + history[i])
      {
        assert HistoryOutput(history)[i] == Text(Plain, NumberedEntry(0 + i, history[0 + i]));
      }
    }
  }

  // ---------------------------------------------------------------------------
  // Properties of autocompletion, concretely

  /** An empty prefix offers every command, in registration order. */
  lemma MatchesEverything()
    ensures Matches("") == CommandNames
  {
    MatchingEmpty(CommandNames);
  }

  /** Names whose first letter differs from the prefix's contribute nothing. */
  lemma FirstLetterMismatch(names: seq<string>, prefix: string)
    requires prefix != []
    requires forall j :: 0 <= j < |names| ==> names[j] != [] && names[j][0] != prefix[0]
    ensures Matching(names, prefix) == []
  {
    forall j | 0 <= j < |names| ensures !StartsWith(names[j], prefix) {
      Mismatch(names[j], prefix, 0);
    }
    MatchingNone(names, prefix);
  }

  /** A single name is kept exactly when it starts with the prefix. */
  lemma MatchingOne(name: string, prefix: string)
    ensures Matching([name], prefix) == if StartsWith(name, prefix) then [name] else []
  {
    assert [name][1..] == [];
  }

  /** A run that contributes nothing, then a name that matches. */
  lemma SkipThenTake(a: seq<string>, x: string, rest: seq<string>, prefix: string)
    requires Matching(a, prefix) == [] && StartsWith(x, prefix)
    ensures Matching(a + [x] + rest, prefix) == [x] + Matching(rest, prefix)
  {
    MatchingAppend(a + [x], rest, prefix);
    MatchingAppend(a, [x], prefix);
    MatchingOne(x, prefix);
  }

  /** A run that contributes nothing, then a name that does not match either. */
  lemma SkipBoth(a: seq<string>, y: string, rest: seq<string>, prefix: string)
    requires Matching(a, prefix) == [] && !StartsWith(y, prefix)
    ensures Matching(a + [y] + rest, prefix) == Matching(rest, prefix)
  {
    MatchingAppend(a + [y], rest, prefix);
    MatchingAppend(a, [y], prefix);
    MatchingOne(y, prefix);
  }

  /** The registered names, cut around `pwd` and `projects`. */
  const BeforePwd: seq<string> := ["help", "whoami", "ls", "cd"]
  const BeforeProjects: seq<string> := ["cat", "about", "skills"]
  const AfterProjects: seq<string> :=
    ["contact", "clear", "date", "uptime", "neofetch", "tree", "echo", "history", "theme"]

  lemma CutAroundPw()
    ensures CommandNames == BeforePwd + ["pwd"] + (BeforeProjects + ["projects"] + AfterProjects)
  {
  }

  lemma PwRuns()
    ensures Matching(BeforePwd, "pw") == []
    ensures Matching(BeforeProjects, "pw") == []
    ensures Matching(AfterProjects, "pw") == []
  {
    FirstLetterMismatch(BeforePwd, "pw");
    FirstLetterMismatch(BeforeProjects, "pw");
    FirstLetterMismatch(AfterProjects, "pw");
  }

  /** `pw` completes to `pwd` alone: `projects` parts with it at the second letter. */
  lemma MatchesPw()
    ensures Matches("pw") == ["pwd"]
  {
    var tail := BeforeProjects + ["projects"] + AfterProjects;
    PwRuns();
    assert Matching(tail, "pw") == [] by {
      Mismatch("projects", "pw", 1);
      SkipBoth(BeforeProjects, "projects", AfterProjects, "pw");
    }
    SkipThenTake(BeforePwd, "pwd", tail, "pw");
    CutAroundPw();
  }

  /** The registered names, cut around those starting with `c`. */
  const BeforeCd: seq<string> := ["help", "whoami", "ls"]
  const BetweenCdCat: seq<string> := ["pwd"]
  const BeforeContact: seq<string> := ["about", "skills", "projects"]
  const AfterClear: seq<string> := ["date", "uptime", "neofetch", "tree", "echo", "history", "theme"]

  lemma CutAroundC()
    ensures CommandNames
      == BeforeCd + ["cd"] + (BetweenCdCat + ["cat"] + (BeforeContact + ["contact"] + ([] + ["clear"] + AfterClear)))
  {
  }

  lemma CRuns()
    ensures Matching(BeforeCd, "c") == []
    ensures Matching(BetweenCdCat, "c") == []
    ensures Matching(BeforeContact, "c") == []
    ensures Matching(AfterClear, "c") == []
  {
    FirstLetterMismatch(BeforeCd, "c");
    FirstLetterMismatch(BetweenCdCat, "c");
    FirstLetterMismatch(BeforeContact, "c");
    FirstLetterMismatch(AfterClear, "c");
  }

  /** Four names that start with the prefix, separated by runs that contribute nothing. */
  lemma MatchingFour(a: seq<string>, b: seq<string>, c: seq<string>, e: seq<string>,
                     prefix: string, x: string, y: string, z: string, w: string)
    requires Matching(a, prefix) == [] && Matching(b, prefix) == []
    requires Matching(c, prefix) == [] && Matching(e, prefix) == []
    requires StartsWith(x, prefix) && StartsWith(y, prefix) && StartsWith(z, prefix) && StartsWith(w, prefix)
    ensures Matching(a + [x] + (b + [y] + (c + [z] + ([] + [w] + e))), prefix) == [x, y, z, w]
  {
    var r3 := [] + [w] + e;
    var r2 := c + [z] + r3;
    var r1 := b + [y] + r2;
    SkipThenTake([], w, e, prefix);
    SkipThenTake(c, z, r3, prefix);
    SkipThenTake(b, y, r2, prefix);
    SkipThenTake(a, x, r1, prefix);
  }

  /** `c` is the start of four commands, offered in registration order. */
  lemma MatchesC()
    ensures Matches("c") == ["cd", "cat", "contact", "clear"]
  {
    CutAroundC();
    CRuns();
    MatchingFour(BeforeCd, BetweenCdCat, BeforeContact, AfterClear, "c", "cd", "cat", "contact", "clear");
  }
}

=== FILE: filesystem.dfy ===
/**
  The terminal's fixed virtual filesystem and the commands that read it:
  directory resolution (`findDirectory`), `ls`, and the box-drawing `tree`.

  A directory holds its entries in the order the fixture object declares
  them; every listing sorts them by name first, as `Object.keys(...).sort()`
  does.
 */
module FileSystem {
  import opened Strings
  import opened Wrappers
  import opened Output

  datatype Node = File | Dir(entries: seq<Entry>)
  datatype Entry = Entry(name: string, node: Node)


  /** The fixture built by the constructor, in declaration order. */
  const Root: seq<Entry> := [
    Entry("about.txt", File),
    Entry("skills.json", File),
    Entry("contact.md", File),
    Entry("README.md", File),
    Entry(".zshrc", File),
    Entry(".vimrc", File),
    Entry("projects", Dir(Projects)),
    Entry("dotfiles", Dir(Dotfiles)),
    Entry("scripts", Dir(Scripts))
  ]

  const Projects: seq<Entry> := [
    Entry("inference-server", Dir([])),
    Entry("rss-feed-aggregator", Dir([])),
    Entry("skripsi-lab", Dir([]))
  ]

  /** The key `nvim/` already ends in a slash, so listings show it as `nvim//`. */
  const Dotfiles: seq<Entry> := [
    Entry(".zshrc", File),
    Entry("nvim/", Dir([Entry("init.lua", File)])),
    Entry("i3config", File)
  ]

  const Scripts: seq<Entry> := [
    Entry("setup.sh", File),
    Entry("deploy.sh", File)
  ]

  // ---------------------------------------------------------------------------
  // Well-formedness

  /** Keys of one object are distinct. */
  predicate UniqueNames(es: seq<Entry>) {
    forall i, j :: 0 <= i < j < |es| ==> es[i].name != es[j].name
  }

  /** A name that a handler shows verbatim on one line: it holds no line feed. */
  predicate CleanName(name: string) {
    '\n' !in name
  }

  /** Every directory of the tree has distinct, clean names. */
  predicate WellFormed(es: seq<Entry>) {
    && UniqueNames(es)
    && (forall i :: 0 <= i < |es| ==> CleanName(es[i].name))
    && (forall i :: 0 <= i < |es| ==> es[i].node.Dir? ==> WellFormed(es[i].node.entries))
  }

  // ---------------------------------------------------------------------------
  // Lookup and sorting

  /** `es[i]` is the first entry called `name`. */
  predicate FirstNamed(es: seq<Entry>, name: string, i: int) {
    && 0 <= i < |es|
    && es[i].name == name
    && forall j :: 0 <= j < i ==> es[j].name != name
  }

  /** `contents[name]`: the node stored under `name`, if any. */
  function Lookup(es: seq<Entry>, name: string): (r: Option<Node>)
    ensures r.None? <==> forall i :: 0 <= i < |es| ==> es[i].name != name
    ensures r.Some? ==> exists i :: FirstNamed(es, name, i) && es[i].node == r.value
    ensures forall i :: FirstNamed(es, name, i) ==> r == Some(es[i].node)
  {
    if es == [] then None
    else if es[0].name == name then
      assert FirstNamed(es, name, 0);
      Some(es[0].node)
    else
      var r := Lookup(es[1..], name);
      assert forall i :: 0 < i < |es| ==> (FirstNamed(es, name, i) <==> FirstNamed(es[1..], name, i - 1));
      assert r.Some? ==> exists i :: FirstNamed(es, name, i) && es[i].node == r.value by {
        if r.Some? {
          var k :| FirstNamed(es[1..], name, k) && es[1..][k].node == r.value;
          assert FirstNamed(es, name, k + 1);
        }
      }
      r
  }

  /** With distinct names, the first entry called `name` is the only one. */
  lemma UniqueFirstNamed(es: seq<Entry>, name: string, i: int)
    requires UniqueNames(es)
    requires 0 <= i < |es| && es[i].name == name
    ensures FirstNamed(es, name, i)
  {
  }

  /** Entries in non-decreasing name order. */
  predicate Sorted(es: seq<Entry>) {
    forall i :: 0 < i < |es| ==> LexLe(es[i - 1].name, es[i].name)
  }

  function Insert(e: Entry, s: seq<Entry>): (r: seq<Entry>)
    requires Sorted(s)
    ensures Sorted(r)
    ensures multiset(r) == multiset(s) + multiset{e}
    ensures r[0] == e || (s != [] && r[0] == s[0])
  {
    if s == [] then [e]
    else if LexLe(e.name, s[0].name) then [e] + s
    else
      LexLeTotal(e.name, s[0].name);
      var rest := Insert(e, s[1..]);
      assert s == [s[0]] + s[1..];
      [s[0]] + rest
  }

  /** `Object.keys(contents).sort()`, carrying each key's node along. */
  function SortByName(es: seq<Entry>): (r: seq<Entry>)
    ensures Sorted(r)
    ensures multiset(r) == multiset(es)
  {
    if es == [] then []
    else
      assert es == [es[0]] + es[1..];
      Insert(es[0], SortByName(es[1..]))
  }

  /** An item as `ls` and `tree` print it: directories get a trailing `/`. */
  function DisplayName(e: Entry): string {
    if e.node.Dir? then e.name + "/" else e.name
  }

  // ---------------------------------------------------------------------------
  // findDirectory

  /** `path.replace(/^\.\//, "")`: one leading `./` is removed. */
  function StripDotSlash(path: string): (r: string)
    ensures r == path || "./" + r == path
    ensures StartsWith(path, "./") ==> "./" + r == path
  {
    if StartsWith(path, "./") then path[2..] else path
  }

  /** The paths that name the root: `""`, `"."` and `"~"`. */
  predicate IsRootPath(path: string) {
    path == "" || path == "." || path == "~"
  }

  /**
    `findDirectory(path)`: the root for a root path; otherwise, after one
    leading `./` is dropped, the contents of a top-level directory of that
    exact name. Files, nested paths and unknown names give `None`.
   */
  function FindDirectory(root: seq<Entry>, path: string): (r: Option<seq<Entry>>)
    ensures IsRootPath(path) ==> r == Some(root)
    ensures !IsRootPath(path) ==>
      (r.Some? <==> exists i :: FirstNamed(root, StripDotSlash(path), i) && root[i].node.Dir?)
    ensures !IsRootPath(path) && r.Some? ==> Entry(StripDotSlash(path), Dir(r.value)) in root
  {
    if IsRootPath(path) then Some(root)
    else
      var clean := StripDotSlash(path);
      match Lookup(root, clean)
      case Some(Dir(contents)) => Some(contents)
      case _ => None
  }

  // ---------------------------------------------------------------------------
  // ls

  /** One `addOutput` per listed item, in the given order. */
  function ListItems(items: seq<Entry>): seq<Line> {
    if items == [] then []
    else AddSpan(DisplayName(items[0])) + ListItems(items[1..])
  }

  const EmptyNotice: string := "Directory is empty"

  /** What `ls` prints for a resolved directory. */
  function Listing(contents: seq<Entry>): seq<Line> {
    if |contents| == 0 then AddSpan(EmptyNotice)
    else ListItems(SortByName(contents))
  }

  function CannotAccess(command: string, path: string): string {
    command + ": cannot access '" + path + "': No such file or directory"
  }

  /** `ls(args)`: only the first argument is looked at. */
  function Ls(root: seq<Entry>, args: seq<string>): seq<Line> {
    if |args| == 0 then Listing(root)
    else
      match FindDirectory(root, args[0])
      case None => AddSpan(CannotAccess("ls", args[0]))
      case Some(contents) => Listing(contents)
  }

  /** `ls` always prints something: an error, the empty-directory notice, or one line per entry. */
  lemma LsPrints(root: seq<Entry>, args: seq<string>)
    ensures |Ls(root, args)| >= 1
  {
    if |args| > 0 && FindDirectory(root, args[0]).None? {
      AddSpanPrints(CannotAccess("ls", args[0]));
    } else {
      var contents := if |args| == 0 then root else FindDirectory(root, args[0]).value;
      ListingPrints(contents);
    }
  }

  lemma ListingPrints(contents: seq<Entry>)
    ensures |Listing(contents)| >= 1
  {
    if |contents| == 0 {
      AddSpanPrints(EmptyNotice);
    } else {
      var items := SortByName(contents);
      assert |items| > 0 by {
        assert contents[0] in multiset(items);
      }
      AddSpanPrints(DisplayName(items[0]));
    }
  }

  /** `tree` always prints something: an error, or the wrapped drawing. */
  lemma TreePrints(root: seq<Entry>, args: seq<string>)
    ensures |Tree(root, args)| >= 1
  {
    if |args| > 0 && FindDirectory(root, args[0]).None? {
      AddSpanPrints(CannotAccess("tree", args[0]));
    } else if |args| == 0 {
      AddOutputPrints(Plain, TreeOpen + "\n" + "~" + "\n" + Terminated(RenderTree(root, "")) + TreeClose);
    } else {
      var contents := FindDirectory(root, args[0]).value;
      var header := TreeHeader(args[0]);
      AddOutputPrints(Plain, TreeOpen + "\n" + header + "\n" + Terminated(RenderTree(contents, "")) + TreeClose);
    }
  }

  /** A root path as first argument lists the same as no argument. */
  lemma LsRootPath(root: seq<Entry>, args: seq<string>)
    requires |args| > 0 && IsRootPath(args[0])
    ensures Ls(root, args) == Ls(root, [])
  {
  }

  // ---------------------------------------------------------------------------
  // tree

  const Branch: string := "├── "
  const Corner: string := "└── "
  const Pipe: string := "│   "
  const Blank: string := "    "

  /**
    `renderTree(contents, prefix)` as the lines it produces (the source ends
    each with a line break): items sorted, the last one drawn with a corner
    and its subtree indented with blanks, the others with a branch and a
    vertical bar. Only non-empty directories are descended into.
   */
  function RenderTree(contents: seq<Entry>, prefix: string): seq<string>
    decreases contents, 1
  {
    RenderItems(contents, SortByName(contents), prefix)
  }

  function RenderItems(contents: seq<Entry>, items: seq<Entry>, prefix: string): seq<string>
    requires multiset(items) <= multiset(contents)
    decreases contents, 0, |items|
  {
    if items == [] then []
    else
      var e := items[0];
      assert e in multiset(contents);
      var isLast := |items| == 1;
      var line := prefix + (if isLast then Corner else Branch) + DisplayName(e);
      var sub :=
        if e.node.Dir? && |e.node.entries| > 0
        then RenderTree(e.node.entries, prefix + (if isLast then Blank else Pipe))
        else [];
      assert multiset(items[1..]) <= multiset(items) by {
        assert items == [e] + items[1..];
      }
      [line] + sub + RenderItems(contents, items[1..], prefix)
  }

  /** The lines joined the way `renderTree` builds its string: each ends in a line break. */
  function Terminated(lines: seq<string>): string {
    if lines == [] then "" else lines[0] + "\n" + Terminated(lines[1..])
  }

  const TreeOpen: string := "<div>"
  const TreeClose: string := "</div>"

  /** The header `tree` prints above the drawing. */
  function TreeHeader(path: string): string {
    if path == "." || path == "~" then "~" else "~/" + path
  }

  function TreeBlock(contents: seq<Entry>, header: string): seq<Line> {
    AddOutput(Plain, TreeOpen + "\n" + header + "\n" + Terminated(RenderTree(contents, "")) + TreeClose)
  }

  /** `tree(args)`: only the first argument is looked at. */
  function Tree(root: seq<Entry>, args: seq<string>): seq<Line> {
    if |args| == 0 then TreeBlock(root, "~")
    else
      match FindDirectory(root, args[0])
      case None => AddSpan(CannotAccess("tree", args[0]))
      case Some(contents) => TreeBlock(contents, TreeHeader(args[0]))
  }

  // ---------------------------------------------------------------------------
  // Properties of the fixture and of findDirectory

  /** A non-empty run of visible ASCII characters. */
  predicate Printable(name: string) {
    name != [] && forall i :: 0 <= i < |name| ==> '!' <= name[i] <= '~'
  }

  lemma PrintableIsClean(name: string)
    requires Printable(name)
    ensures CleanName(name)
  {
  }

  /** A directory level whose names are distinct and printable. */
  lemma LevelWellFormed(es: seq<Entry>)
    requires UniqueNames(es)
    requires forall i :: 0 <= i < |es| ==> Printable(es[i].name)
    requires forall i :: 0 <= i < |es| ==> es[i].node.Dir? ==> WellFormed(es[i].node.entries)
    ensures WellFormed(es)
  {
    forall i | 0 <= i < |es| ensures CleanName(es[i].name) {
      PrintableIsClean(es[i].name);
    }
  }

  /** The fixture has distinct keys in every directory and only one-line names. */
  lemma RootWellFormed()
    ensures WellFormed(Root)
  {
    ProjectsWellFormed();
    DotfilesWellFormed();
    ScriptsWellFormed();
    RootUnique();
    RootPrintable();
    LevelWellFormed(Root);
  }

  lemma RootUnique()
    ensures UniqueNames(Root)
  {
  }

  lemma RootPrintable()
    ensures forall i :: 0 <= i < |Root| ==> Printable(Root[i].name)
  {
    forall i | 0 <= i < |Root| ensures Printable(Root[i].name) {
      if i < 4 { RootFilePrintable(i); } else { RootOtherPrintable(i); }
    }
  }

  lemma RootFilePrintable(i: nat)
    requires i < 4
    ensures Printable(Root[i].name)
  {
  }

  lemma RootOtherPrintable(i: nat)
    requires 4 <= i < |Root|
    ensures Printable(Root[i].name)
  {
  }

  lemma ProjectsWellFormed()
    ensures WellFormed(Projects)
  {
    ProjectsUnique();
    ProjectsPrintable();
    assert WellFormed([]);
    LevelWellFormed(Projects);
  }

  lemma ProjectsUnique()
    ensures UniqueNames(Projects)
  {
    assert Projects[0].name[0] == 'i' && Projects[1].name[0] == 'r' && Projects[2].name[0] == 's';
  }

  lemma ProjectsPrintable()
    ensures forall i :: 0 <= i < |Projects| ==> Printable(Projects[i].name)
  {
  }

  lemma DotfilesWellFormed()
    ensures WellFormed(Dotfiles)
  {
    LevelWellFormed([Entry("init.lua", File)]);
    LevelWellFormed(Dotfiles);
  }

  lemma ScriptsWellFormed()
    ensures WellFormed(Scripts)
  {
    LevelWellFormed(Scripts);
  }

  /** With distinct keys, `findDirectory` succeeds exactly on root paths and on top-level directory names, with or without `./`. */
  lemma FindDirectoryExact(root: seq<Entry>, path: string)
    requires UniqueNames(root)
    ensures FindDirectory(root, path).Some? <==>
      IsRootPath(path) || exists i :: 0 <= i < |root| && root[i].name == StripDotSlash(path) && root[i].node.Dir?
  {
    if !IsRootPath(path) {
      var clean := StripDotSlash(path);
      if e :| e in root && e.name == clean && e.node.Dir? {
        var i :| 0 <= i < |root| && root[i] == e;
        UniqueFirstNamed(root, clean, i);
      }
    }
  }

  /** On the fixture, exactly nine paths resolve: the three root paths and the three directories, bare or behind `./`. */
  lemma FindDirectoryOnRoot(path: string)
    ensures FindDirectory(Root, path).Some? <==>
      path in ["", ".", "~", "projects", "./projects", "dotfiles", "./dotfiles", "scripts", "./scripts"]
  {
    RootWellFormed();
    FindDirectoryExact(Root, path);
    RootDirectories(StripDotSlash(path));
    DotSlashForms(path);
  }

  /** The top-level directories of the fixture are `projects`, `dotfiles` and `scripts`. */
  lemma RootDirectories(name: string)
    ensures (exists i :: 0 <= i < |Root| && Root[i].name == name && Root[i].node.Dir?) <==>
            name in ["projects", "dotfiles", "scripts"]
  {
    if i :| 0 <= i < |Root| && Root[i].name == name && Root[i].node.Dir? {
      assert i == 6 || i == 7 || i == 8 by {
        assert i in {0, 1, 2, 3, 4, 5, 6, 7, 8};
      }
    }
    if name == "projects" {
      assert Root[6].name == name && Root[6].node.Dir?;
    } else if name == "dotfiles" {
      assert Root[7].name == name && Root[7].node.Dir?;
    } else if name == "scripts" {
      assert Root[8].name == name && Root[8].node.Dir?;
    }
  }

  lemma DotSlashForms(path: string)
    ensures !IsRootPath(path) ==>
      (StripDotSlash(path) in ["projects", "dotfiles", "scripts"] <==>
       path in ["projects", "./projects", "dotfiles", "./dotfiles", "scripts", "./scripts"])
  {
    var clean := StripDotSlash(path);
    if StartsWith(path, "./") {
      assert path == "./" + clean && path[0] == '.';
      assert path != "projects" && path != "dotfiles" && path != "scripts";
      if clean == "projects" { assert path == "./projects"; }
      if clean == "dotfiles" { assert path == "./dotfiles"; }
      if clean == "scripts" { assert path == "./scripts"; }
      if path == "./projects" { assert clean == "./projects"[2..] == "projects"; }
      if path == "./dotfiles" { assert clean == "./dotfiles"[2..] == "dotfiles"; }
      if path == "./scripts" { assert clean == "./scripts"[2..] == "scripts"; }
    } else {
      assert clean == path;
      assert "./projects"[..2] == "./" && "./dotfiles"[..2] == "./" && "./scripts"[..2] == "./";
      assert path !in ["./projects", "./dotfiles", "./scripts"];
    }
  }

  /** A path `findDirectory` accepts in a well-formed tree holds no line feed. */
  lemma FoundPathIsOneLine(root: seq<Entry>, path: string)
    requires WellFormed(root)
    requires FindDirectory(root, path).Some?
    ensures '\n' !in path
  {
    if !IsRootPath(path) {
      var clean := StripDotSlash(path);
      var i :| FirstNamed(root, clean, i) && root[i].node.Dir?;
      assert CleanName(root[i].name);
      assert path == clean || path == "./" + clean;
    }
  }

  /** The contents `findDirectory` returns in a well-formed tree are well-formed themselves. */
  lemma FoundWellFormed(root: seq<Entry>, path: string)
    requires WellFormed(root)
    requires FindDirectory(root, path).Some?
    ensures WellFormed(FindDirectory(root, path).value)
  {
    if !IsRootPath(path) {
      var e := Entry(StripDotSlash(path), Dir(FindDirectory(root, path).value));
      var i :| 0 <= i < |root| && root[i] == e;
    }
  }

  // ---------------------------------------------------------------------------
  // Properties of sorting

  /** Order between neighbours extends to every pair. */
  lemma {:induction false} SortedAllPairs(es: seq<Entry>, i: int, j: int)
    requires Sorted(es)
    requires 0 <= i < j < |es|
    ensures LexLe(es[i].name, es[j].name)
  {
    if j == i + 1 {
    } else {
      SortedAllPairs(es, i, j - 1);
      LexLeTransitive(es[i].name, es[j - 1].name, es[j].name);
    }
  }

  // ---------------------------------------------------------------------------
  // Properties of ls

  /** The lines `ls` prints for a non-empty listing: one per entry, sorted, directories marked with `/`. */
  function ListingLines(sorted: seq<Entry>): seq<Line> {
    seq(|sorted|, i requires 0 <= i < |sorted| => Text(Plain, DisplayName(sorted[i])))
  }

  lemma ListingLinesCons(items: seq<Entry>)
    requires items != []
    ensures ListingLines(items) == [Text(Plain, DisplayName(items[0]))] + ListingLines(items[1..])
  {
    var l := ListingLines(items);
    var r := [Text(Plain, DisplayName(items[0]))] + ListingLines(items[1..]);
    assert |l| == |r|;
    forall i | 0 <= i < |l| ensures l[i] == r[i] {
      if i > 0 {
        assert r[i] == ListingLines(items[1..])[i - 1];
      }
    }
  }

  lemma {:induction false} ListItemsLines(items: seq<Entry>)
    requires forall i :: 0 <= i < |items| ==> CleanName(items[i].name)
    ensures ListItems(items) == ListingLines(items)
  {
    if items != [] {
      assert '\n' !in DisplayName(items[0]);
      SpanLine(DisplayName(items[0]));
      ListItemsLines(items[1..]);
      ListingLinesCons(items);
    }
  }

  /**
    `ls` on a resolved non-empty directory prints one line per entry, in
    name order, directories suffixed with `/`.
   */
  lemma ListingSorted(contents: seq<Entry>)
    requires WellFormed(contents) && contents != []
    ensures var s := SortByName(contents);
      && Listing(contents) == ListingLines(s)
      && |Listing(contents)| == |contents|
      && multiset(s) == multiset(contents)
      && (forall i, j :: 0 <= i < j < |s| ==> LexLe(s[i].name, s[j].name))
  {
    var s := SortByName(contents);
    assert |s| == |multiset(s)| == |multiset(contents)| == |contents|;
    forall i | 0 <= i < |s| ensures CleanName(s[i].name) {
      assert s[i] in multiset(contents);
    }
    ListItemsLines(s);
    forall i, j | 0 <= i < j < |s| ensures LexLe(s[i].name, s[j].name) {
      SortedAllPairs(s, i, j);
    }
  }

  /** The "cannot access" message holds a line feed only if the path does. */
  lemma CannotAccessOneLine(command: string, path: string)
    requires command == "ls" || command == "tree"
    requires '\n' !in path
    ensures '\n' !in CannotAccess(command, path)
  {
  }

  /** A failed `ls` prints exactly one "cannot access" line and nothing else. */
  lemma LsFailure(root: seq<Entry>, args: seq<string>)
    requires |args| > 0 && FindDirectory(root, args[0]).None?
    requires '\n' !in args[0]
    ensures Ls(root, args) == [Text(Plain, CannotAccess("ls", args[0]))]
  {
    CannotAccessOneLine("ls", args[0]);
    SpanLine(CannotAccess("ls", args[0]));
  }

  /** `ls` on an empty directory prints exactly the one "Directory is empty" line. */
  lemma LsEmpty(root: seq<Entry>, args: seq<string>)
    requires |args| > 0 && FindDirectory(root, args[0]) == Some([])
    ensures Ls(root, args) == [Text(Plain, EmptyNotice)]
  {
    SpanLine(EmptyNotice);
  }

  // ---------------------------------------------------------------------------
  // Properties of renderTree and tree

  /** One step of `renderTree`'s loop: the item's head line, its subtree, then the remaining items. */
  lemma RenderItemsStep(contents: seq<Entry>, items: seq<Entry>, prefix: string)
    requires multiset(items) <= multiset(contents) && items != []
    ensures multiset(items[1..]) <= multiset(contents)
    ensures var e, last := items[0], |items| == 1;
      RenderItems(contents, items, prefix) ==
        [prefix + (if last then Corner else Branch) + DisplayName(e)]
        + (if e.node.Dir? && |e.node.entries| > 0
           then RenderTree(e.node.entries, prefix + (if last then Blank else Pipe)) else [])
        + RenderItems(contents, items[1..], prefix)
  {
    assert items == [items[0]] + items[1..];
  }

  /** The number of entries in a directory and all its subdirectories. */
  function Size(es: seq<Entry>): nat {
    if es == [] then 0 else Weight(es[0]) + Size(es[1..])
  }

  /** An entry and everything below it. */
  function Weight(e: Entry): nat {
    1 + (if e.node.Dir? then Size(e.node.entries) else 0)
  }

  lemma SizeSingle(e: Entry)
    ensures Size([e]) == Weight(e)
  {
    assert [e][1..] == [];
  }

  lemma {:induction false} SizeAppend(a: seq<Entry>, b: seq<Entry>)
    ensures Size(a + b) == Size(a) + Size(b)
  {
    if a == [] {
      assert a + b == b;
    } else {
      assert (a + b)[0] == a[0];
      assert (a + b)[1..] == a[1..] + b;
      SizeAppend(a[1..], b);
    }
  }

  /** Taking one element out of a sequence takes it out of its multiset. */
  lemma RemoveAt<T>(b: seq<T>, k: nat)
    requires k < |b|
    ensures b == b[..k] + ([b[k]] + b[k + 1..])
    ensures multiset(b[..k] + b[k + 1..]) == multiset(b) - multiset{b[k]}
  {
    assert b == b[..k] + [b[k]] + b[k + 1..];
  }

  /** Removing one entry removes its weight from the size. */
  lemma SizeRemoveAt(b: seq<Entry>, k: nat)
    requires k < |b|
    ensures Size(b) == Size(b[..k] + b[k + 1..]) + Weight(b[k])
  {
    var front, back := b[..k], b[k + 1..];
    RemoveAt(b, k);
    SizeAppend(front, back);
    SizeAppend(front, [b[k]] + back);
    SizeAppend([b[k]], back);
    SizeSingle(b[k]);
  }

  /** The size does not depend on the order in which entries are stored. */
  lemma {:induction false} SizePermutation(a: seq<Entry>, b: seq<Entry>)
    requires multiset(a) == multiset(b)
    ensures Size(a) == Size(b)
    decreases |a|
  {
    if a == [] {
      assert |b| == |multiset(b)| == 0;
      assert b == [];
      assert Size(a) == Size(b);
    } else {
      var x := a[0];
      assert x in multiset(b);
      var k :| 0 <= k < |b| && b[k] == x;
      var rest := b[..k] + b[k + 1..];
      RemoveAt(b, k);
      RemoveAt(a, 0);
      assert a[..0] + a[1..] == a[1..];
      SizePermutation(a[1..], rest);
      SizeRemoveAt(b, k);
      assert Size(a) == Weight(x) + Size(a[1..]);
      assert Size(a) == Size(b);
    }
  }

  lemma {:induction false} RenderItemsCount(contents: seq<Entry>, items: seq<Entry>, prefix: string)
    requires multiset(items) <= multiset(contents)
    ensures |RenderItems(contents, items, prefix)| == Size(items)
    decreases contents, 0, |items|
  {
    if items != [] {
      var e := items[0];
      assert e in multiset(contents);
      assert multiset(items[1..]) <= multiset(items) by {
        assert items == [e] + items[1..];
      }
      if e.node.Dir? && |e.node.entries| > 0 {
        RenderTreeCount(e.node.entries, prefix + (if |items| == 1 then Blank else Pipe));
      }
      RenderItemsCount(contents, items[1..], prefix);
    }
  }

  /** `renderTree` draws one line per entry of the subtree, files and directories alike. */
  lemma {:induction false} RenderTreeCount(contents: seq<Entry>, prefix: string)
    ensures |RenderTree(contents, prefix)| == Size(contents)
    decreases contents, 1
  {
    RenderItemsCount(contents, SortByName(contents), prefix);
    SizePermutation(SortByName(contents), contents);
  }

  lemma {:induction false} RenderItemsPrefixed(contents: seq<Entry>, items: seq<Entry>, prefix: string)
    requires multiset(items) <= multiset(contents)
    ensures forall l :: l in RenderItems(contents, items, prefix) ==> StartsWith(l, prefix)
    decreases contents, 0, |items|
  {
    if items != [] {
      var e, last := items[0], |items| == 1;
      assert e in multiset(contents);
      RenderItemsStep(contents, items, prefix);
      var head := prefix + (if last then Corner else Branch) + DisplayName(e);
      var q := prefix + (if last then Blank else Pipe);
      var sub := if e.node.Dir? && |e.node.entries| > 0 then RenderTree(e.node.entries, q) else [];
      var rest := RenderItems(contents, items[1..], prefix);
      assert RenderItems(contents, items, prefix) == [head] + sub + rest;
      assert StartsWith(head, prefix) by {
        assert head[..|prefix|] == prefix;
      }
      assert forall l :: l in sub ==> StartsWith(l, prefix) by {
        if e.node.Dir? && |e.node.entries| > 0 {
          RenderTreePrefixed(e.node.entries, q);
          forall l | l in sub ensures StartsWith(l, prefix) {
            assert l[..|prefix|] == l[..|q|][..|prefix|];
          }
        }
      }
      RenderItemsPrefixed(contents, items[1..], prefix);
    }
  }

  /** Every line `renderTree` draws begins with the indentation it was given. */
  lemma {:induction false} RenderTreePrefixed(contents: seq<Entry>, prefix: string)
    ensures forall l :: l in RenderTree(contents, prefix) ==> StartsWith(l, prefix)
    decreases contents, 1
  {
    RenderItemsPrefixed(contents, SortByName(contents), prefix);
  }

  /** A line drawn for an item of this level: it starts with the prefix followed by a connector. */
  predicate IsHead(line: string, prefix: string) {
    StartsWith(line, prefix + Branch) || StartsWith(line, prefix + Corner)
  }

  /** The lines drawn for the items of this level, as opposed to their subtrees. */
  function Heads(lines: seq<string>, prefix: string): seq<string> {
    if lines == [] then []
    else (if IsHead(lines[0], prefix) then [lines[0]] else []) + Heads(lines[1..], prefix)
  }

  lemma {:induction false} HeadsAppend(a: seq<string>, b: seq<string>, prefix: string)
    ensures Heads(a + b, prefix) == Heads(a, prefix) + Heads(b, prefix)
  {
    if a == [] {
      assert a + b == b;
    } else {
      assert (a + b)[0] == a[0];
      assert (a + b)[1..] == a[1..] + b;
      HeadsAppend(a[1..], b, prefix);
    }
  }

  /** Lines indented one level deeper are never heads of this level. */
  lemma {:induction false} NoHeadsDeeper(lines: seq<string>, prefix: string, cont: string)
    requires cont == Pipe || cont == Blank
    requires forall l :: l in lines ==> StartsWith(l, prefix + cont)
    ensures Heads(lines, prefix) == []
  {
    if lines != [] {
      var l := lines[0];
      assert l in lines;
      assert l[|prefix|] == (prefix + cont)[|prefix|] == cont[0];
      assert forall l' :: l' in lines[1..] ==> l' in lines;
      NoHeadsDeeper(lines[1..], prefix, cont);
    }
  }

  /** The head line of the `i`-th of `n` items: a corner for the last, a branch for the others. */
  function HeadLine(prefix: string, e: Entry, i: nat, n: nat): string {
    prefix + (if i == n - 1 then Corner else Branch) + DisplayName(e)
  }

  /** The head lines of a whole level, in the order of `items`. */
  function HeadLines(prefix: string, items: seq<Entry>): seq<string> {
    seq(|items|, i requires 0 <= i < |items| => HeadLine(prefix, items[i], i, |items|))
  }

  lemma HeadLinesCons(prefix: string, items: seq<Entry>)
    requires items != []
    ensures HeadLines(prefix, items) == [HeadLine(prefix, items[0], 0, |items|)] + HeadLines(prefix, items[1..])
  {
    var l, r := HeadLines(prefix, items), [HeadLine(prefix, items[0], 0, |items|)] + HeadLines(prefix, items[1..]);
    forall i | 0 < i < |l| ensures l[i] == r[i] {
      assert r[i] == HeadLines(prefix, items[1..])[i - 1];
    }
  }

  /** The line drawn for an item is a head of its level. */
  lemma HeadIsHead(prefix: string, conn: string, e: Entry)
    requires conn == Branch || conn == Corner
    ensures IsHead(prefix + conn + DisplayName(e), prefix)
  {
    var line := prefix + conn + DisplayName(e);
    assert line == (prefix + conn) + DisplayName(e);
    assert line[..|prefix + conn|] == prefix + conn;
  }

  lemma {:induction false} RenderItemsHeads(contents: seq<Entry>, items: seq<Entry>, prefix: string)
    requires multiset(items) <= multiset(contents)
    ensures Heads(RenderItems(contents, items, prefix), prefix) == HeadLines(prefix, items)
    decreases |items|
  {
    if items != [] {
      var e := items[0];
      var isLast := |items| == 1;
      var cont := if isLast then Blank else Pipe;
      var line := prefix + (if isLast then Corner else Branch) + DisplayName(e);
      var sub :=
        if e.node.Dir? && |e.node.entries| > 0
        then RenderTree(e.node.entries, prefix + cont)
        else [];
      RenderItemsStep(contents, items, prefix);
      var rest := RenderItems(contents, items[1..], prefix);
      if e.node.Dir? && |e.node.entries| > 0 {
        RenderTreePrefixed(e.node.entries, prefix + cont);
      }
      NoHeadsDeeper(sub, prefix, cont);
      HeadIsHead(prefix, if isLast then Corner else Branch, e);
      assert Heads([line], prefix) == [line];
      HeadsAppend([line] + sub, rest, prefix);
      HeadsAppend([line], sub, prefix);
      RenderItemsHeads(contents, items[1..], prefix);
      HeadLinesCons(prefix, items);
    }
  }

  /**
    The items of one level are drawn in sorted order, each exactly once, the
    last with `└── ` and every other with `├── `; the lines in between belong
    to subtrees, which are indented one level deeper.
   */
  lemma RenderTreeHeads(contents: seq<Entry>, prefix: string)
    ensures Heads(RenderTree(contents, prefix), prefix) == HeadLines(prefix, SortByName(contents))
  {
    RenderItemsHeads(contents, SortByName(contents), prefix);
  }

  /** A line `addOutput` keeps as it is: not blank and without a line break. */
  predicate Drawable(l: string) {
    l != [] && !IsBlank(l) && '\n' !in l
  }

  lemma HeadDrawable(prefix: string, conn: string, e: Entry)
    requires conn == Branch || conn == Corner
    requires '\n' !in prefix && '\n' !in e.name
    ensures Drawable(prefix + conn + DisplayName(e))
  {
    var l := prefix + conn + DisplayName(e);
    assert l[|prefix|] == conn[0];
    assert '\n' !in DisplayName(e);
  }

  lemma {:induction false} RenderItemsDrawable(contents: seq<Entry>, items: seq<Entry>, prefix: string)
    requires multiset(items) <= multiset(contents)
    requires WellFormed(contents) && '\n' !in prefix
    ensures forall l :: l in RenderItems(contents, items, prefix) ==> Drawable(l)
    decreases contents, 0, |items|
  {
    if items != [] {
      var e := items[0];
      assert e in multiset(contents);
      var k :| 0 <= k < |contents| && contents[k] == e;
      assert multiset(items[1..]) <= multiset(items) by {
        assert items == [e] + items[1..];
      }
      var isLast := |items| == 1;
      HeadDrawable(prefix, if isLast then Corner else Branch, e);
      var q := prefix + (if isLast then Blank else Pipe);
      if e.node.Dir? && |e.node.entries| > 0 {
        RenderTreeDrawable(e.node.entries, q);
      }
      RenderItemsDrawable(contents, items[1..], prefix);
    }
  }

  /** In a well-formed tree every line `renderTree` draws survives `addOutput` unchanged. */
  lemma {:induction false} RenderTreeDrawable(contents: seq<Entry>, prefix: string)
    requires WellFormed(contents) && '\n' !in prefix
    ensures forall l :: l in RenderTree(contents, prefix) ==> Drawable(l)
    decreases contents, 1
  {
    RenderItemsDrawable(contents, SortByName(contents), prefix);
  }

  /** Ending every line with a break and then appending `last` is joining with breaks. */
  lemma {:induction false} TerminatedJoin(lines: seq<string>, last: string)
    ensures Terminated(lines) + last == Join(lines + [last], "\n")
  {
    if lines == [] {
      assert lines + [last] == [last];
    } else {
      TerminatedJoin(lines[1..], last);
      assert lines + [last] == [lines[0]] + (lines[1..] + [last]);
      JoinCons(lines[0], lines[1..] + [last], "\n");
    }
  }

  /** The lines `tree` shows: the opening wrapper, the header, the drawing and the closing wrapper. */
  function TreeLines(contents: seq<Entry>, header: string): seq<string> {
    [TreeOpen, header] + RenderTree(contents, "") + [TreeClose]
  }

  /** The string `tree` builds is its lines joined with breaks. */
  lemma WrappedJoin(header: string, r: seq<string>)
    ensures TreeOpen + "\n" + header + "\n" + Terminated(r) + TreeClose
      == Join([TreeOpen, header] + r + [TreeClose], "\n")
  {
    TerminatedJoin(r, TreeClose);
    assert [TreeOpen, header] + r + [TreeClose] == [TreeOpen] + ([header] + (r + [TreeClose]));
    JoinCons(header, r + [TreeClose], "\n");
    JoinCons(TreeOpen, [header] + (r + [TreeClose]), "\n");
  }

  lemma WrappedDrawable(header: string, r: seq<string>)
    requires Drawable(header)
    requires forall l :: l in r ==> Drawable(l)
    ensures forall l :: l in [TreeOpen, header] + r + [TreeClose] ==> Drawable(l)
  {
    assert Drawable(TreeOpen) && Drawable(TreeClose) by {
      assert TreeOpen[0] == '<' && TreeClose[0] == '<';
    }
  }

  /** Drawn lines wrapped in the opening and closing tokens and joined with breaks split back apart. */
  lemma WrappedSplit(header: string, r: seq<string>)
    requires Drawable(header)
    requires forall l :: l in r ==> Drawable(l)
    ensures SplitOutput(TreeOpen + "\n" + header + "\n" + Terminated(r) + TreeClose)
      == [TreeOpen, header] + r + [TreeClose]
  {
    var all := [TreeOpen, header] + r + [TreeClose];
    WrappedJoin(header, r);
    WrappedDrawable(header, r);
    forall i | 0 <= i < |all| ensures all[i] != [] && !IsBlank(all[i]) && '\n' !in all[i] {
      assert all[i] in all;
    }
    assert IsTrimmed(all[0] + all[|all| - 1]) by {
      var t := all[0] + all[|all| - 1];
      assert t == TreeOpen + TreeClose;
      assert t[0] == '<' && t[|t| - 1] == '>';
    }
    JoinedLines(all);
  }

  /**
    The drawing `tree` hands to `addOutput` comes out one scrollback line
    per drawn line, in order, between the header and the wrappers.
   */
  lemma TreeBlockLines(contents: seq<Entry>, header: string)
    requires WellFormed(contents) && Drawable(header)
    ensures TreeBlock(contents, header) == Texts(Plain, TreeLines(contents, header))
    ensures |TreeBlock(contents, header)| == Size(contents) + 3
  {
    var r := RenderTree(contents, "");
    RenderTreeDrawable(contents, "");
    WrappedSplit(header, r);
    RenderTreeCount(contents, "");
  }

  /** The header is one non-blank line for every path `findDirectory` accepts. */
  lemma TreeHeaderOneLine(root: seq<Entry>, path: string)
    requires WellFormed(root) && FindDirectory(root, path).Some?
    ensures Drawable(TreeHeader(path))
  {
    FoundPathIsOneLine(root, path);
    var h := TreeHeader(path);
    assert h[0] == '~';
  }

  /** `tree` with no argument draws the whole tree under the header `~`. */
  lemma TreeWhole(root: seq<Entry>)
    requires WellFormed(root)
    ensures Tree(root, []) == Texts(Plain, TreeLines(root, "~"))
  {
    assert "~"[0] == '~';
    TreeBlockLines(root, "~");
  }

  /**
    `tree` on a path `findDirectory` resolves draws that directory under the
    header `~` for `.` and `~`, and `~/` followed by the path as typed
    otherwise (so `""` gives `~/` and `./projects` gives `~/./projects`).
   */
  lemma TreeFound(root: seq<Entry>, args: seq<string>)
    requires WellFormed(root)
    requires |args| > 0 && FindDirectory(root, args[0]).Some?
    ensures Tree(root, args) == Texts(Plain, TreeLines(FindDirectory(root, args[0]).value, TreeHeader(args[0])))
  {
    var contents, header := FindDirectory(root, args[0]).value, TreeHeader(args[0]);
    FoundWellFormed(root, args[0]);
    TreeHeaderOneLine(root, args[0]);
    assert Tree(root, args) == TreeBlock(contents, header);
    TreeBlockLines(contents, header);
  }

  /** `tree` on an empty directory shows the header between the wrappers and nothing else. */
  lemma TreeEmptyDirectory(root: seq<Entry>, args: seq<string>)
    requires WellFormed(root)
    requires |args| > 0 && FindDirectory(root, args[0]) == Some([])
    ensures Tree(root, args) == Texts(Plain, [TreeOpen, TreeHeader(args[0]), TreeClose])
  {
    TreeFound(root, args);
    EmptyTreeLines(TreeHeader(args[0]));
  }

  /** An empty directory has nothing to draw. */
  lemma EmptyTreeLines(header: string)
    ensures TreeLines([], header) == [TreeOpen, header, TreeClose]
  {
    RenderTreeCount([], "");
    assert RenderTree([], "") == [];
  }

  /** A failed `tree` prints exactly one "cannot access" line and no drawing. */
  lemma TreeFailure(root: seq<Entry>, args: seq<string>)
    requires |args| > 0 && FindDirectory(root, args[0]).None?
    requires '\n' !in args[0]
    ensures Tree(root, args) == [Text(Plain, CannotAccess("tree", args[0]))]
  {
    CannotAccessOneLine("tree", args[0]);
    SpanLine(CannotAccess("tree", args[0]));
  }

  // ---------------------------------------------------------------------------
  // The fixture, concretely

  lemma FindProjectsDir()
    ensures FindDirectory(Root, "projects") == Some(Projects)
  {
    assert "projects"[0] == 'p';
    assert FirstNamed(Root, "projects", 6);
    assert Root[6].node == Dir(Projects);
  }

  lemma FindDotfilesDir()
    ensures FindDirectory(Root, "./dotfiles") == Some(Dotfiles)
  {
    assert StripDotSlash("./dotfiles") == "dotfiles";
    assert FirstNamed(Root, "dotfiles", 7);
    assert Root[7].node == Dir(Dotfiles);
  }

  /** Inserting an entry that sorts first puts it in front. */
  lemma InsertFront(e: Entry, s: seq<Entry>)
    requires Sorted(s) && (s == [] || LexLe(e.name, s[0].name))
    ensures Insert(e, s) == [e] + s
  {
  }

  /** Sorting an already sorted sequence changes nothing. */
  lemma {:induction false} SortedFixed(es: seq<Entry>)
    requires Sorted(es)
    ensures SortByName(es) == es
  {
    if es != [] {
      assert Sorted(es[1..]);
      SortedFixed(es[1..]);
      InsertFront(es[0], es[1..]);
    }
  }

  lemma ProjectsSorted()
    ensures Sorted(Projects)
  {
    assert LexLe("inference-server", "rss-feed-aggregator");
    assert LexLe("rss-feed-aggregator", "skripsi-lab");
  }

  lemma ProjectsLines()
    ensures ListingLines(Projects) ==
      [Text(Plain, "inference-server/"), Text(Plain, "rss-feed-aggregator/"), Text(Plain, "skripsi-lab/")]
  {
    assert DisplayName(Projects[0]) == "inference-server/";
    assert DisplayName(Projects[1]) == "rss-feed-aggregator/";
    assert DisplayName(Projects[2]) == "skripsi-lab/";
  }

  /** `ls projects` lists the three project directories, each marked with `/`. */
  lemma LsProjects()
    ensures Ls(Root, ["projects"]) ==
      [Text(Plain, "inference-server/"), Text(Plain, "rss-feed-aggregator/"), Text(Plain, "skripsi-lab/")]
  {
    FindProjectsDir();
    ProjectsWellFormed();
    ProjectsSorted();
    SortedFixed(Projects);
    ListingSorted(Projects);
    ProjectsLines();
  }

  /** Three entries whose middle one sorts last come out with the last two swapped. */
  lemma SortSwapLastTwo(a: Entry, b: Entry, c: Entry)
    requires !LexLe(b.name, c.name) && LexLe(a.name, c.name)
    ensures SortByName([a, b, c]) == [a, c, b]
  {
    assert [a, b, c][1..] == [b, c] && [b, c][1..] == [c] && [c][1..] == [];
    assert SortByName([c]) == Insert(c, []) == [c];
    LexLeTotal(b.name, c.name);
    assert Insert(b, [c]) == [c] + Insert(b, []);
    assert SortByName([b, c]) == [c, b];
  }

  /** Names compare by their first differing character: `.` before `i` before `n`. */
  lemma DotfilesOrder()
    ensures SortByName(Dotfiles) == [Dotfiles[0], Dotfiles[2], Dotfiles[1]]
  {
    assert Dotfiles == [Dotfiles[0], Dotfiles[1], Dotfiles[2]];
    assert !LexLe("nvim/", "i3config");
    assert LexLe(".zshrc", "i3config");
    SortSwapLastTwo(Dotfiles[0], Dotfiles[1], Dotfiles[2]);
  }

  /** A directory holding one file is drawn as that file behind a corner. */
  lemma RenderSingleFile(f: Entry, prefix: string)
    requires f.node == File
    ensures RenderTree([f], prefix) == [prefix + Corner + f.name]
  {
    assert SortByName([f]) == [f];
    RenderItemsStep([f], [f], prefix);
    assert [f][1..] == [];
  }

  /** A top-level file that is not last is drawn behind a branch, with nothing below it. */
  lemma RenderFileFirst(contents: seq<Entry>, e: Entry, rest: seq<Entry>)
    requires multiset([e] + rest) <= multiset(contents)
    requires e.node == File && rest != []
    ensures RenderItems(contents, [e] + rest, "") == [Branch + e.name] + RenderItems(contents, rest, "")
  {
    RenderItemsStep(contents, [e] + rest, "");
    assert ([e] + rest)[1..] == rest;
    assert "" + Branch == Branch;
  }

  /** A last top-level directory holding one file: a corner line, then its file one level in. */
  lemma RenderLastDir(contents: seq<Entry>, d: Entry, f: Entry)
    requires multiset([d]) <= multiset(contents)
    requires d.node == Dir([f]) && f.node == File
    ensures RenderItems(contents, [d], "") == [Corner + (d.name + "/"), Blank + Corner + f.name]
  {
    RenderItemsStep(contents, [d], "");
    assert [d][1..] == [];
    assert "" + Blank == Blank && "" + Corner == Corner;
    RenderSingleFile(f, Blank);
  }

  /**
    Two files followed by a directory holding one file, drawn at the top
    level: branches for the files, a corner for the directory and, below it,
    a blank-indented corner for its file.
   */
  lemma RenderFilesThenDir(contents: seq<Entry>, a: Entry, b: Entry, d: Entry, f: Entry)
    requires multiset([a, b, d]) <= multiset(contents)
    requires a.node == File && b.node == File && d.node == Dir([f]) && f.node == File
    ensures RenderItems(contents, [a, b, d], "") ==
      [Branch + a.name, Branch + b.name, Corner + (d.name + "/"), Blank + Corner + f.name]
  {
    assert multiset([b, d]) <= multiset([a, b, d]);
    RenderFileThenDir(contents, b, d, f);
    assert [a, b, d] == [a] + [b, d];
    RenderFileFirst(contents, a, [b, d]);
    ConsDisplay(Branch + a.name, Branch + b.name, Corner + (d.name + "/"), Blank + Corner + f.name);
  }

  /**
    An element put before a display of three gives the display of four; stated
    for any element type, so no two strings get compared character by character.
   */
  lemma ConsDisplay<T>(x: T, y: T, z: T, w: T)
    ensures [x] + [y, z, w] == [x, y, z, w]
  {
  }

  /** A file followed by a last directory holding one file, drawn at the top level. */
  lemma RenderFileThenDir(contents: seq<Entry>, b: Entry, d: Entry, f: Entry)
    requires multiset([b, d]) <= multiset(contents)
    requires b.node == File && d.node == Dir([f]) && f.node == File
    ensures RenderItems(contents, [b, d], "") == [Branch + b.name, Corner + (d.name + "/"), Blank + Corner + f.name]
  {
    var below := [Corner + (d.name + "/"), Blank + Corner + f.name];
    assert [b, d] == [b] + [d];
    assert multiset([d]) <= multiset([b, d]);
    RenderLastDir(contents, d, f);
    RenderFileFirst(contents, b, [d]);
    assert [Branch + b.name] + below == [Branch + b.name, Corner + (d.name + "/"), Blank + Corner + f.name];
  }

  /** The drawing of `dotfiles`: the `nvim/` key shows with a doubled slash, last in order, with its file below. */
  lemma RenderDotfiles()
    ensures RenderTree(Dotfiles, "") ==
      [Branch + ".zshrc", Branch + "i3config", Corner + "nvim//", Blank + Corner + "init.lua"]
  {
    DotfilesOrder();
    var z, n, c := Dotfiles[0], Dotfiles[1], Dotfiles[2];
    var f := Entry("init.lua", File);
    assert multiset([z, c, n]) == multiset(SortByName(Dotfiles));
    assert z.node == File && c.node == File && n.node == Dir([f]);
    RenderFilesThenDir(Dotfiles, z, c, n, f);
    assert z.name == ".zshrc" && c.name == "i3config";
    NvimKey();
  }

  /** The key `nvim/` gains a second slash when shown as a directory. */
  lemma NvimKey()
    ensures Dotfiles[1].name + "/" == "nvim//"
  {
    var k := Dotfiles[1].name;
    assert k == "nvim/";
  }

  /** `tree ./dotfiles` keeps the `./` in its header and draws the directory's four lines. */
  lemma TreeDotfiles()
    ensures Tree(Root, ["./dotfiles"]) == Texts(Plain, [
      TreeOpen, "~/./dotfiles",
      Branch + ".zshrc", Branch + "i3config", Corner + "nvim//", Blank + Corner + "init.lua",
      TreeClose])
  {
    TreeOfDotfiles();
    DotfilesTreeLines();
  }

  lemma DotfilesTreeLines()
    ensures TreeLines(Dotfiles, TreeHeader("./dotfiles")) == [
      TreeOpen, "~/./dotfiles",
      Branch + ".zshrc", Branch + "i3config", Corner + "nvim//", Blank + Corner + "init.lua",
      TreeClose]
  {
    assert TreeHeader("./dotfiles") == "~/./dotfiles";
    RenderDotfiles();
    FourLines(TreeOpen, "~/./dotfiles", Branch + ".zshrc", Branch + "i3config", Corner + "nvim//", Blank + Corner + "init.lua", TreeClose);
  }

  /** `TreeLines`' shape: two header lines, a drawing of four, the closing line. */
  lemma FourLines<T>(o: T, h: T, a: T, b: T, c: T, d: T, z: T)
    ensures [o, h] + [a, b, c, d] + [z] == [o, h, a, b, c, d, z]
  {
  }

  lemma TreeOfDotfiles()
    ensures Tree(Root, ["./dotfiles"]) == Texts(Plain, TreeLines(Dotfiles, TreeHeader("./dotfiles")))
  {
    FindDotfilesDir();
    RootWellFormed();
    TreeFound(Root, ["./dotfiles"]);
  }
}

=== FILE: lifecycle.dfy ===
/**
  The widget's lifecycle: at most one terminal exists at a time (the class's
  static `instance`), construction hands back the existing one, `init` runs
  its set-up once, and `destroy` unregisters the instance.

  Listener attachment is abstracted to one flag; the objects JavaScript
  shares by reference are values here, told apart by an identity number.
  The output pane and the input field are page elements that a new object
  looks up again rather than creates, so what they show outlives any one
  terminal: the world keeps them while no terminal is registered.
 */
module Lifecycle {
  import opened Wrappers
  import Output
  import Session

  datatype Terminal = Terminal(
    id: nat,                 // which object this is
    session: Session.State,
    initialized: bool,       // isInitialized
    listening: bool)         // the keydown, click and resize listeners are attached

  datatype World = World(
    instance: Option<Terminal>,  // InteractiveTerminal.instance
    nextId: nat,                 // the identity the next new object gets
    pane: seq<Output.Line>,      // what #terminal-output shows when no terminal holds it
    field: string)               // the value of #terminal-input likewise

  /**
    Every registered terminal was created before, so its identity is taken,
    and its session satisfies `Session.Valid`; the field holds one line.
   */
  predicate Valid(w: World) {
    && (w.instance.Some? ==> w.instance.value.id < w.nextId && Session.Valid(w.instance.value.session))
    && '\n' !in w.field
  }

  /** `init()`: attaches the listeners and sets the flag, unless the flag is already set. */
  function Init(t: Terminal): (r: Terminal)
    ensures r.initialized
    ensures r.id == t.id && r.session == t.session
    ensures t.initialized ==> r == t
    ensures !t.initialized ==> r.listening
  {
    if t.initialized then t else t.(initialized := true, listening := true)
  }

  /**
    `new InteractiveTerminal()`: the registered instance if there is one;
    otherwise a new terminal, registered and then initialized, whose history
    is empty, cursor -1 and directory `~`, but which shows the pane and the
    field as the page holds them: the constructor clears neither.
   */
  function Construct(w: World): (r: (World, Terminal))
    ensures r.0.instance == Some(r.1)
    ensures w.instance.Some? ==> r == (w, w.instance.value)
    ensures w.instance.None? ==>
      && r.1.id == w.nextId && r.0.nextId == w.nextId + 1
      && r.1.session.history == [] && r.1.session.cursor == -1
      && r.1.session.directory == "~" && r.1.session.files == Session.Initial.files
      && r.1.session.scrollback == w.pane && r.1.session.input == w.field
      && r.1.initialized && r.1.listening
    ensures r.0.pane == w.pane && r.0.field == w.field
  {
    if w.instance.Some? then (w, w.instance.value)
    else
      var session := Session.Initial.(scrollback := w.pane, input := w.field);
      var t := Init(Terminal(w.nextId, session, false, false));
      (w.(instance := Some(t), nextId := w.nextId + 1), t)
  }

  /** `InteractiveTerminal.getInstance()`. */
  function GetInstance(w: World): (r: (World, Terminal))
    ensures r.0.instance == Some(r.1)
    ensures w.instance.Some? ==> r.1 == w.instance.value
  {
    if w.instance.None? then Construct(w) else (w, w.instance.value)
  }

  /**
    What the output pane and the input field show: the registered terminal's
    scrollback and input while there is one, the page's own otherwise.
   */
  function Page(w: World): (seq<Output.Line>, string) {
    if w.instance.Some? then (w.instance.value.session.scrollback, w.instance.value.session.input)
    else (w.pane, w.field)
  }

  /**
    `destroy()`: the object's own listeners are removed and the registration
    is cleared, whichever object it is called on. `isInitialized` stays set,
    so calling `init()` on the destroyed object again does nothing. Nothing
    is erased: the pane and the field keep what the registered terminal, if
    any, last showed; an object no longer registered had no hold on them.
   */
  function Destroy(w: World, t: Terminal): (r: (World, Terminal))
    ensures r.0.instance.None? && r.0.nextId == w.nextId
    ensures w.instance.Some? ==>
      r.0.pane == w.instance.value.session.scrollback && r.0.field == w.instance.value.session.input
    ensures w.instance.None? ==> r.0.pane == w.pane && r.0.field == w.field
    ensures !r.1.listening && r.1.initialized == t.initialized
    ensures r.1.id == t.id && r.1.session == t.session
  {
    var (pane, field) := Page(w);
    (w.(instance := None, pane := pane, field := field), t.(listening := false))
  }

  // ---------------------------------------------------------------------------
  // Properties

  lemma InitIdempotent(t: Terminal)
    ensures Init(Init(t)) == Init(t)
  {
  }

  /**
    Every step keeps the world valid: a terminal made from the page's pane and
    field starts in a session satisfying `Session.Valid`.
   */
  lemma StepsValid(w: World, t: Terminal)
    requires Valid(w)
    ensures Valid(Construct(w).0) && Valid(GetInstance(w).0) && Valid(Destroy(w, t).0)
  {
  }

  /** Constructing twice yields the same terminal and registers nothing new. */
  lemma ConstructTwice(w: World)
    ensures var (w1, t1) := Construct(w);
      Construct(w1) == (w1, t1)
  {
  }

  /** `getInstance` and the constructor agree. */
  lemma GetInstanceIsConstruct(w: World)
    ensures GetInstance(w) == Construct(w)
  {
  }

  /**
    After `destroy`, constructing makes a different terminal with a fresh
    history that still shows the old one's output and typed text.
   */
  lemma ConstructAfterDestroy(w: World, t: Terminal)
    requires Valid(w) && w.instance == Some(t)
    ensures var (w1, _) := Destroy(w, t);
      var (_, t2) := Construct(w1);
      && t2.id != t.id && t2.listening
      && t2.session.history == [] && t2.session.cursor == -1
      && t2.session.scrollback == t.session.scrollback && t2.session.input == t.session.input
  {
  }

  /**
    Neither the constructor nor `destroy` erases the page: both leave the
    pane and the field showing what they showed before.
   */
  lemma PageSurvives(w: World, t: Terminal)
    ensures Page(Construct(w).0) == Page(w)
    ensures Page(GetInstance(w).0) == Page(w)
    ensures Page(Destroy(w, t).0) == Page(w)
  {
  }

  /**
    Destroying an object that is no longer registered still unregisters the
    live terminal, and the page keeps showing the live terminal's output.
   */
  lemma DestroyStale(w: World, t: Terminal)
    requires w.instance.Some? && w.instance.value.id != t.id
    ensures var (w1, d) := Destroy(w, t);
      && w1.instance.None? && d.id == t.id
      && w1.pane == w.instance.value.session.scrollback && w1.field == w.instance.value.session.input
  {
  }

  /** A destroyed terminal stays deaf: `init` sees the flag and attaches nothing. */
  lemma InitAfterDestroy(w: World, t: Terminal)
    requires t.initialized
    ensures var (_, d) := Destroy(w, t);
      Init(d) == d && !Init(d).listening
  {
  }
}

=== FILE: output.dfy ===
/**
  The scrollback's lines and `addOutput`, the one routine every handler uses
  to append text: it strips outer newlines, trims, and — when the text still
  holds a line break — emits one line per non-blank segment.

  Markup is not modelled: a `Text` line carries the text handed to
  `addOutput`, markup of the handler's own wrapper removed, and the class it
  was given.
 */
module Output {
  import opened Strings

  /** The class passed to `addOutput` (its second argument). */
  datatype Style = Plain | Error | Hint | Info

  /**
    Canned blocks whose content is fixed markup (help, about, contact,
    theme) or depends on the clock (date, uptime, neofetch); each is one
    opaque unit of the scrollback.
   */
  datatype Block =
    | HelpBlock | AboutBlock | ContactBlock | ThemeBlock
    | NeofetchBlock | DateBlock | UptimeBlock

  datatype Line =
    | PromptTop(directory: string)   // `┌──(defha@dev-arch)-[dir]`
    | PromptBottom(command: string)  // `└─$ command`
    | Text(style: Style, text: string)
    | Canned(block: Block)

  /** `s` with its leading run of line feeds removed (`/^\n+/`). */
  function DropLeadingNewlines(s: string): (r: string)
    ensures |r| <= |s| && r == s[|s| - |r|..]
    ensures forall i :: 0 <= i < |s| - |r| ==> s[i] == '\n'
    ensures r == [] || r[0] != '\n'
  {
    if s != [] && s[0] == '\n' then DropLeadingNewlines(s[1..]) else s
  }

  /** `s` with its trailing run of line feeds removed (`/\n+$/`). */
  function DropTrailingNewlines(s: string): (r: string)
    ensures |r| <= |s| && r == s[..|r|]
    ensures forall i :: |r| <= i < |s| ==> s[i] == '\n'
    ensures r == [] || r[|r| - 1] != '\n'
  {
    if s != [] && s[|s| - 1] == '\n' then DropTrailingNewlines(s[..|s| - 1]) else s
  }

  /** `text.replace(/^\n+|\n+$/g, "").trim()`: the text `addOutput` works on. */
  function CleanText(text: string): string {
    Trim(DropTrailingNewlines(DropLeadingNewlines(text)))
  }

  /** A run of line feeds is white space. */
  lemma NewlinesAreBlank(s: string)
    requires forall i :: 0 <= i < |s| ==> s[i] == '\n'
    ensures IsBlank(s)
  {
  }

  /** Cutting a run of line feeds off the front is invisible to `Trim`. */
  lemma TrimDropsFront(s: string, k: nat)
    requires k <= |s| && forall i :: 0 <= i < k ==> s[i] == '\n'
    ensures Trim(s) == Trim(s[k..])
  {
    assert IsBlank(s[..k]) by { NewlinesAreBlank(s[..k]); }
    assert s == s[..k] + s[k..] + [];
    TrimBlankEnds(s[..k], s[k..], []);
  }

  /** Cutting a run of line feeds off the back is invisible to `Trim`. */
  lemma TrimDropsBack(s: string, k: nat)
    requires k <= |s| && forall i :: k <= i < |s| ==> s[i] == '\n'
    ensures Trim(s) == Trim(s[..k])
  {
    assert IsBlank(s[k..]) by { NewlinesAreBlank(s[k..]); }
    assert s == [] + s[..k] + s[k..];
    TrimBlankEnds([], s[..k], s[k..]);
  }

  /** Stripping the outer newlines first changes nothing: `trim` removes them anyway. */
  lemma CleanTextIsTrim(text: string)
    ensures CleanText(text) == Trim(text)
  {
    var a := DropLeadingNewlines(text);
    var m := DropTrailingNewlines(a);
    assert Trim(text) == Trim(a) by { TrimDropsFront(text, |text| - |a|); }
    assert Trim(a) == Trim(m) by { TrimDropsBack(a, |m|); }
  }

  /** The segments `addOutput` keeps: the non-blank ones, in their order. */
  function NonBlank(segs: seq<string>): (r: seq<string>)
    ensures |r| <= |segs|
    ensures forall i :: 0 <= i < |r| ==> !IsBlank(r[i])
    ensures forall x :: x in r <==> x in segs && !IsBlank(x)
  {
    if segs == [] then []
    else if IsBlank(segs[0]) then NonBlank(segs[1..])
    else [segs[0]] + NonBlank(segs[1..])
  }

  /** Filtering distributes over concatenation, so the kept segments stay in order. */
  lemma {:induction false} NonBlankAppend(a: seq<string>, b: seq<string>)
    ensures NonBlank(a + b) == NonBlank(a) + NonBlank(b)
  {
    if a == [] {
      assert a + b == b;
    } else {
      assert (a + b)[0] == a[0];
      assert (a + b)[1..] == a[1..] + b;
      NonBlankAppend(a[1..], b);
    }
  }

  /** When no segment is blank, every segment is kept. */
  lemma {:induction false} NonBlankKeepsAll(segs: seq<string>)
    requires forall i :: 0 <= i < |segs| ==> !IsBlank(segs[i])
    ensures NonBlank(segs) == segs
  {
    if segs != [] {
      NonBlankKeepsAll(segs[1..]);
    }
  }

  /** Filtering keeps only segments that were there, so no line feed appears. */
  lemma {:induction false} NonBlankNoNewline(segs: seq<string>)
    requires forall i :: 0 <= i < |segs| ==> '\n' !in segs[i]
    ensures forall i :: 0 <= i < |NonBlank(segs)| ==> '\n' !in NonBlank(segs)[i]
  {
    if segs != [] {
      NonBlankNoNewline(segs[1..]);
    }
  }

  /**
    What `addOutput` keeps of trimmed text holding a line feed: at least one
    piece, since the first is not blank, and no piece holds a line feed.
   */
  lemma FeedPieces(t: string)
    requires IsTrimmed(t) && '\n' in t
    ensures var r := NonBlank(Split(t, '\n'));
      && |r| >= 1
      && (forall i :: 0 <= i < |r| ==> '\n' !in r[i])
  {
    var segs := Split(t, '\n');
    NonBlankNoNewline(segs);
    SplitHead(t, '\n');
    assert !IsBlank(segs[0]);
  }

  /** The texts of the lines one `addOutput(text, …)` call appends. */
  function SplitOutput(text: string): (r: seq<string>)
    ensures |r| >= 1
    ensures forall i :: 0 <= i < |r| ==> '\n' !in r[i]
    ensures '\n' !in Trim(text) ==> r == [Trim(text)]
    ensures '\n' in Trim(text) ==>
      && (forall i :: 0 <= i < |r| ==> !IsBlank(r[i]))
      && (forall x :: x in r <==> x in Split(Trim(text), '\n') && !IsBlank(x))
      && r == NonBlank(Split(Trim(text), '\n'))
  {
    var clean := CleanText(text);
    assert clean == Trim(text) by {
      CleanTextIsTrim(text);
    }
    Pieces(clean)
  }

  /** The lines `addOutput` makes of the text once cleaned: one, or its non-blank pieces. */
  function Pieces(clean: string): (r: seq<string>)
    requires IsTrimmed(clean)
    ensures |r| >= 1
    ensures forall i :: 0 <= i < |r| ==> '\n' !in r[i]
    ensures '\n' !in clean ==> r == [clean]
    ensures '\n' in clean ==> r == NonBlank(Split(clean, '\n'))
  {
    if '\n' in clean then
      FeedPieces(clean);
      NonBlank(Split(clean, '\n'))
    else [clean]
  }

  /** One `Text` line per string, in order, all with the same class. */
  function Texts(style: Style, texts: seq<string>): seq<Line> {
    seq(|texts|, i requires 0 <= i < |texts| => Text(style, texts[i]))
  }

  /** `addOutput(text, style)` as the lines it appends. */
  function AddOutput(style: Style, text: string): seq<Line> {
    Texts(style, SplitOutput(text))
  }

  /**
    The visible texts of the lines `addOutput` appends for `text` wrapped in
    a `<span>`, as every handler wraps its message. The tags keep the text's
    own white space from being trimmed, and they make the first and last
    pieces non-blank, so only blank pieces in between are dropped.
   */
  function SpanPieces(text: string): (r: seq<string>)
    ensures |r| >= 1
    ensures forall i :: 0 <= i < |r| ==> '\n' !in r[i]
    ensures '\n' !in text ==> r == [text]
    ensures '\n' in text ==> var segs := Split(text, '\n');
      && |r| >= 2 && r[0] == segs[0] && r[|r| - 1] == segs[|segs| - 1]
      && (forall i :: 0 < i < |r| - 1 ==> !IsBlank(r[i]) && r[i] in segs)
  {
    if '\n' !in text then
      [text]
    else
      var segs := Split(text, '\n');
      assert |segs| > 1;
      var middle := segs[1..|segs| - 1];
      NonBlankNoNewline(middle);
      [segs[0]] + NonBlank(middle) + [segs[|segs| - 1]]
  }

  /** `addOutput(`<span …>${text}</span>`, "output-line")`. */
  function AddSpan(text: string): seq<Line> {
    Texts(Plain, SpanPieces(text))
  }

  /** Cutting wrapped text at its line feeds glues the wrapper to the first and the last piece. */
  lemma SplitWrapped(open: string, text: string, close: string)
    requires '\n' in text && '\n' !in open && '\n' !in close
    ensures var segs := Split(text, '\n');
      && |segs| >= 2
      && Split(open + text + close, '\n') == [open + segs[0]] + segs[1..|segs| - 1] + [segs[|segs| - 1] + close]
  {
    var segs := Split(text, '\n');
    var n := |segs|;
    assert n >= 2;
    var q := segs[..n - 1] + [segs[n - 1] + close];
    JoinSuffix(segs, close, "\n");
    assert q[0] == segs[0];
    var parts := [open + q[0]] + q[1..];
    JoinPrefix(open, q, "\n");
    assert parts == [open + segs[0]] + segs[1..n - 1] + [segs[n - 1] + close];
    assert Join(parts, "\n") == open + text + close;
    forall i | 0 <= i < |parts|
      ensures '\n' !in parts[i]
    {
      if 0 < i < n - 1 {
        assert parts[i] == segs[i];
      }
    }
    SplitJoin(parts, '\n');
  }

  /** Non-blank ends survive the filter; only the middle is filtered. */
  lemma NonBlankEnds(first: string, middle: seq<string>, last: string)
    requires !IsBlank(first) && !IsBlank(last)
    ensures NonBlank([first] + middle + [last]) == [first] + NonBlank(middle) + [last]
  {
    NonBlankAppend([first] + middle, [last]);
    NonBlankAppend([first], middle);
    assert NonBlank([last]) == [last];
    assert NonBlank([first]) == [first];
  }

  /** The first and last elements of a sequence with one element on each side of a middle. */
  lemma Framed<T>(x: T, middle: seq<T>, y: T)
    ensures var p := [x] + middle + [y];
      |p| == |middle| + 2 && p[0] == x && p[|p| - 1] == y && p[1..|p| - 1] == middle
  {
  }

  /** The ends of `a + m + b` are the outer ends of `a` and `b`. */
  lemma OuterEnds<T>(a: seq<T>, m: seq<T>, b: seq<T>)
    requires a != [] && b != []
    ensures var w := a + m + b; w[0] == a[0] && w[|w| - 1] == b[|b| - 1]
  {
  }

  lemma FirstOf<T>(a: seq<T>, b: seq<T>)
    requires a != []
    ensures (a + b)[0] == a[0]
  {
  }

  lemma LastOf<T>(a: seq<T>, b: seq<T>)
    requires b != []
    ensures (a + b)[|a + b| - 1] == b[|b| - 1]
  {
  }

  /** With a line feed, `SpanPieces` keeps the first and last segments and the non-blank ones between. */
  lemma SpanPiecesFeed(text: string)
    requires '\n' in text
    ensures var segs := Split(text, '\n');
      SpanPieces(text) == [segs[0]] + NonBlank(segs[1..|segs| - 1]) + [segs[|segs| - 1]]
  {
  }

  /** `addOutput` of wrapped text holding a line feed: the tags glued to the outer segments, blank middles dropped. */
  lemma SpanWrappedFeed(open: string, text: string, close: string)
    requires open != [] && close != [] && !IsSpace(open[0]) && !IsSpace(close[|close| - 1])
    requires '\n' !in open && '\n' !in close && '\n' in text
    ensures var segs := Split(text, '\n');
      SplitOutput(open + text + close)
        == [open + segs[0]] + NonBlank(segs[1..|segs| - 1]) + [segs[|segs| - 1] + close]
  {
    var w := open + text + close;
    assert IsTrimmed(w) by {
      OuterEnds(open, text, close);
    }
    assert '\n' in w by {
      assert w == open + (text + close);
    }
    var segs := Split(text, '\n');
    var n := |segs|;
    SplitWrapped(open, text, close);
    var first, last := open + segs[0], segs[n - 1] + close;
    assert !IsBlank(first) by {
      FirstOf(open, segs[0]);
    }
    assert !IsBlank(last) by {
      LastOf(segs[n - 1], close);
    }
    NonBlankEnds(first, segs[1..n - 1], last);
    SplitOutputTrimmed(w);
  }

  /**
    Why a handler's span wrapper keeps its message intact: `addOutput` of
    `open + text + close`, for tags that hold no line feed and neither start
    nor end with white space, gives the pieces of `SpanPieces(text)`, with the
    opening tag glued to the first and the closing tag to the last.
   */
  lemma SpanWrapped(open: string, text: string, close: string)
    requires open != [] && close != [] && !IsSpace(open[0]) && !IsSpace(close[|close| - 1])
    requires '\n' !in open && '\n' !in close
    ensures var p, r := SpanPieces(text), SplitOutput(open + text + close);
      && |r| == |p|
      && (|p| == 1 ==> r == [open + p[0] + close])
      && (|p| >= 2 ==> r == [open + p[0]] + p[1..|p| - 1] + [p[|p| - 1] + close])
  {
    if '\n' in text {
      var segs := Split(text, '\n');
      var n := |segs|;
      SpanWrappedFeed(open, text, close);
      SpanPiecesFeed(text);
      Framed(segs[0], NonBlank(segs[1..n - 1]), segs[n - 1]);
    } else {
      var w := open + text + close;
      assert IsTrimmed(w) by {
        OuterEnds(open, text, close);
      }
      assert '\n' !in w;
    }
  }

  /** Every `addOutput` call appends at least one line. */
  lemma AddOutputPrints(style: Style, text: string)
    ensures |AddOutput(style, text)| >= 1
  {
  }

  /** Every span-wrapped message appends at least one line. */
  lemma AddSpanPrints(text: string)
    ensures |AddSpan(text)| >= 1
  {
  }

  /** A message with no line feed is shown as exactly one line, verbatim. */
  lemma SpanLine(text: string)
    requires '\n' !in text
    ensures AddSpan(text) == [Text(Plain, text)]
  {
  }

  /** A text that reads as one line of output. */
  predicate IsOneLine(t: string) {
    t != [] && IsTrimmed(t) && '\n' !in t
  }

  /** A single trimmed, non-empty line of text is emitted as exactly that line. */
  lemma SingleLine(style: Style, t: string)
    requires IsOneLine(t)
    ensures AddOutput(style, t) == [Text(style, t)]
  {
  }

  /** Text between two one-line ends is one line when it holds no line feed. */
  lemma OneLineConcat(a: string, m: string, b: string)
    requires a != [] && b != [] && !IsSpace(a[0]) && !IsSpace(b[|b| - 1])
    requires '\n' !in a && '\n' !in m && '\n' !in b
    ensures IsOneLine(a + m + b)
  {
    var t := a + m + b;
    assert t[0] == a[0];
    assert t[|t| - 1] == b[|b| - 1];
  }

  /** One-line parts joined by a separator without line feeds make one line. */
  lemma JoinOneLine(parts: seq<string>, sep: string)
    requires |parts| >= 1 && '\n' !in sep
    requires forall i :: 0 <= i < |parts| ==> IsOneLine(parts[i])
    ensures IsOneLine(Join(parts, sep))
  {
    JoinNoNewline(parts, sep);
    JoinEnds(parts, sep);
  }

  /** On trimmed text holding a line feed, `addOutput` keeps the non-blank pieces between the feeds. */
  lemma SplitOutputTrimmed(t: string)
    requires IsTrimmed(t) && '\n' in t
    ensures SplitOutput(t) == NonBlank(Split(t, '\n'))
  {
    CleanTextIsTrim(t);
  }

  /** Two or more lines joined with line feeds hold a feed, and keep the outer ends of the first and last line. */
  lemma JoinedTrimmed(lines: seq<string>)
    requires |lines| >= 2
    requires forall i :: 0 <= i < |lines| ==> lines[i] != []
    requires IsTrimmed(lines[0] + lines[|lines| - 1])
    ensures IsTrimmed(Join(lines, "\n")) && '\n' in Join(lines, "\n")
  {
    var j := Join(lines, "\n");
    JoinEnds(lines, "\n");
    var first, last := lines[0], lines[|lines| - 1];
    assert (first + last)[0] == first[0] && (first + last)[|first + last| - 1] == last[|last| - 1];
    JoinCons(lines[0], lines[1..], "\n");
    assert lines == [lines[0]] + lines[1..];
    assert j[|lines[0]|] == '\n';
  }

  /**
    Lines joined with line feeds come back out of `addOutput` one by one,
    provided none is blank and the outermost ends are not white space.
   */
  lemma JoinedLines(lines: seq<string>)
    requires |lines| >= 2
    requires forall i :: 0 <= i < |lines| ==> lines[i] != [] && !IsBlank(lines[i]) && '\n' !in lines[i]
    requires IsTrimmed(lines[0] + lines[|lines| - 1])
    ensures SplitOutput(Join(lines, "\n")) == lines
  {
    JoinedTrimmed(lines);
    SplitOutputTrimmed(Join(lines, "\n"));
    SplitJoin(lines, '\n');
    NonBlankKeepsAll(lines);
  }
}

=== FILE: session.dfy ===
/**
  The terminal session as a state machine: the history, the history cursor,
  the input field, the scrollback and the current directory, changed only by
  the key presses the widget handles and by the user editing the input.
 */
module Session {
  import opened Strings
  import opened Wrappers
  import opened Output
  import opened Commands
  import FileSystem

  datatype State = State(
    history: seq<string>,   // commandHistory
    cursor: int,            // historyIndex
    input: string,          // the input field's value
    scrollback: seq<Line>,  // the output pane
    directory: string,      // currentDirectory
    files: seq<FileSystem.Entry>)  // fileSystem, never written to

  /** The state a new widget starts in. */
  const Initial: State := State([], -1, "", [], "~", FileSystem.Root)

  /**
    What every reachable state satisfies: the cursor lies between -1 (before
    any navigation) and the length, entries are trimmed and non-empty, no two
    neighbours are equal, and the directory never leaves `~`.
   */
  predicate Valid(s: State) {
    && -1 <= s.cursor <= |s.history|
    && (forall i :: 0 <= i < |s.history| ==> IsOneLine(s.history[i]))
    && (forall i :: 0 < i < |s.history| ==> s.history[i - 1] != s.history[i])
    && '\n' !in s.input
    && s.directory == "~"
  }

  // ---------------------------------------------------------------------------
  // Editing the input

  /** `text` without line feeds and carriage returns. */
  function StripLineBreaks(text: string): (r: string)
    ensures '\n' !in r && '\r' !in r
    ensures forall c :: c in r <==> c in text && c != '\n' && c != '\r'
    ensures '\n' !in text && '\r' !in text ==> r == text
  {
    if text == [] then []
    else
      var rest := StripLineBreaks(text[1..]);
      assert text == [text[0]] + text[1..];
      if text[0] == '\n' || text[0] == '\r' then rest else [text[0]] + rest
  }

  /**
    The user sets the input field to `text`. The field is a single-line text
    control, whose value never holds a line break.
   */
  function Type(s: State, text: string): (r: State)
    ensures r.history == s.history && r.cursor == s.cursor && r.scrollback == s.scrollback
    ensures r.directory == s.directory && '\n' !in r.input && r.files == s.files
    ensures '\n' !in text && '\r' !in text ==> r.input == text
  {
    s.(input := StripLineBreaks(text))
  }

  // ---------------------------------------------------------------------------
  // executeCommand

  /** The history after `line` is submitted: appended unless it repeats the last entry. */
  function Record(history: seq<string>, line: string): (r: seq<string>)
    ensures |r| == |history| || |r| == |history| + 1
    ensures |r| == |history| <==> history != [] && history[|history| - 1] == line
    ensures r != [] && r[|r| - 1] == line
    ensures r[..|history|] == history
  {
    if history != [] && history[|history| - 1] == line then history else history + [line]
  }

  /** The two-line prompt echo: the directory line, then the submitted line. */
  function Prompt(directory: string, line: string): seq<Line> {
    [PromptTop(directory), PromptBottom(line)]
  }

  /** The two lines `addOutput` gets for a name the table does not hold. */
  function NotFound(name: string): seq<Line> {
    AddOutput(Error, "DefTerm: " + name + ": command not found") + AddOutput(Hint, HelpHint)
  }

  /** The scrollback after the prompt echo `echoed` once `line` has been dispatched. */
  function Respond(echoed: seq<Line>, line: string, history: seq<string>, directory: string,
                   files: seq<FileSystem.Entry>): seq<Line> {
    var words := Split(line, ' ');
    match Find(words[0])
    case Some(c) => Apply(Run(c, words[1..], history, directory, files), echoed)
    case None => echoed + NotFound(words[0])
  }

  /** Enter: `executeCommand()`. */
  function Submit(s: State): (r: State)
    ensures Trim(s.input) == [] ==> r == s
    ensures Trim(s.input) != [] ==>
      && r.history == Record(s.history, Trim(s.input))
      && r.cursor == |r.history|
      && r.input == ""
      && r.directory == s.directory
    ensures r.files == s.files
  {
    var line := Trim(s.input);
    if line == [] then s
    else
      var history := Record(s.history, line);
      var echoed := s.scrollback + Prompt(s.directory, line);
      State(history, |history|, "", Respond(echoed, line, history, s.directory, s.files), s.directory, s.files)
  }

  // ---------------------------------------------------------------------------
  // navigateHistory

  /** `x` clamped into `[lo, hi]`. */
  function Clamp(x: int, lo: int, hi: int): int
    requires lo <= hi
  {
    if x < lo then lo else if x > hi then hi else x
  }

  /** ArrowUp (`direction` -1) and ArrowDown (`direction` 1): `navigateHistory(direction)`. */
  function Navigate(s: State, direction: int): (r: State)
    ensures r.history == s.history && r.scrollback == s.scrollback && r.directory == s.directory && r.files == s.files
    ensures r.cursor == Clamp(s.cursor + direction, 0, |s.history|)
    ensures r.input == if r.cursor < |s.history| then s.history[r.cursor] else ""
  {
    var index := s.cursor + direction;
    if index < 0 then
      s.(cursor := 0, input := if |s.history| > 0 then s.history[0] else "")
    else if index >= |s.history| then
      s.(cursor := |s.history|, input := "")
    else
      s.(cursor := index, input := s.history[index])
  }

  // ---------------------------------------------------------------------------
  // autocomplete

  /** Tab: `autocomplete()`. */
  function Complete(s: State): (r: State)
    ensures r.history == s.history && r.cursor == s.cursor && r.directory == s.directory && r.files == s.files
  {
    var matches := Matches(Trim(s.input));
    if |matches| == 1 then s.(input := matches[0])
    else if |matches| > 1 then s.(scrollback := s.scrollback + AddOutput(Info, Join(matches, "  ")))
    else s
  }

  // ---------------------------------------------------------------------------
  // handleKeyDown

  datatype Key = Enter | ArrowUp | ArrowDown | Tab | OtherKey

  /** `handleKeyDown(e)`: four keys are handled; any other key is left to the input field. */
  function HandleKey(s: State, key: Key): (r: State)
    ensures key == OtherKey ==> r == s
    ensures r.directory == s.directory && r.files == s.files
  {
    match key
    case Enter => Submit(s)
    case ArrowUp => Navigate(s, -1)
    case ArrowDown => Navigate(s, 1)
    case Tab => Complete(s)
    case OtherKey => s
  }

  // ---------------------------------------------------------------------------
  // The invariant

  lemma InitialValid()
    ensures Valid(Initial)
  {
  }

  /** Recording an entry keeps every entry an entry and neighbouring entries distinct. */
  lemma RecordValid(history: seq<string>, line: string)
    requires forall i :: 0 <= i < |history| ==> IsOneLine(history[i])
    requires forall i :: 0 < i < |history| ==> history[i - 1] != history[i]
    requires IsOneLine(line)
    ensures var r := Record(history, line);
      && (forall i :: 0 <= i < |r| ==> IsOneLine(r[i]))
      && (forall i :: 0 < i < |r| ==> r[i - 1] != r[i])
  {
  }

  /** The line `executeCommand` works on is a history entry, unless it is blank. */
  lemma SubmittedLine(s: State)
    requires '\n' !in s.input && Trim(s.input) != []
    ensures IsOneLine(Trim(s.input))
  {
    TrimKeepsOut(s.input, '\n');
  }

  lemma SubmitValid(s: State)
    requires Valid(s)
    ensures Valid(Submit(s))
  {
    var line := Trim(s.input);
    if line != [] {
      SubmittedLine(s);
      RecordValid(s.history, line);
      var r := Submit(s);
      assert r.history == Record(s.history, line) && r.cursor == |r.history|;
      assert r.input == "" && r.directory == s.directory;
    }
  }

  lemma NavigateValid(s: State, direction: int)
    requires Valid(s)
    ensures Valid(Navigate(s, direction))
  {
  }

  /** A lower-case word is a line of output and a single word of a command line. */
  lemma WordIsOneLine(n: string)
    requires IsLowerWord(n)
    ensures IsOneLine(n) && ' ' !in n
  {
    assert !IsSpace(n[0]) && !IsSpace(n[|n| - 1]);
  }

  lemma CompleteValid(s: State)
    requires Valid(s)
    ensures Valid(Complete(s))
  {
    var matches := Matches(Trim(s.input));
    if |matches| == 1 {
      assert matches[0] in matches;
      ListedIsWord(matches[0]);
      WordIsOneLine(matches[0]);
    }
  }

  /** Every key the widget handles, and every edit of the input, keeps the invariant. */
  lemma HandleKeyValid(s: State, key: Key)
    requires Valid(s)
    ensures Valid(HandleKey(s, key))
  {
    match key
    case Enter => SubmitValid(s);
    case ArrowUp => NavigateValid(s, -1);
    case ArrowDown => NavigateValid(s, 1);
    case Tab => CompleteValid(s);
    case OtherKey =>
  }

  lemma TypeValid(s: State, text: string)
    requires Valid(s)
    ensures Valid(Type(s, text))
  {
  }

  // ---------------------------------------------------------------------------
  // What a submission appends

  lemma HintOneLine()
    ensures IsOneLine(HelpHint)
  {
  }

  /** The error and the hint for an unknown name are one line each. */
  lemma NotFoundLines(name: string)
    requires '\n' !in name
    ensures NotFound(name) == [Text(Error, "DefTerm: " + name + ": command not found"), Text(Hint, HelpHint)]
  {
    OneLineConcat("DefTerm: ", name, ": command not found");
    SingleLine(Error, "DefTerm: " + name + ": command not found");
    HintOneLine();
    SingleLine(Hint, HelpHint);
  }

  /** A registered command other than `clear` appends its output below the prompt echo. */
  lemma SubmitKnown(s: State, c: Command)
    requires Trim(s.input) != []
    requires Find(Split(Trim(s.input), ' ')[0]) == Some(c) && c != Clear
    ensures var line := Trim(s.input); var r := Submit(s);
      r.scrollback == s.scrollback + Prompt(s.directory, line)
        + Run(c, Split(line, ' ')[1..], r.history, s.directory, s.files).lines
  {
    var line := Trim(s.input);
    OnlyClearReplaces(c, Split(line, ' ')[1..], Submit(s).history, s.directory, s.files);
  }

  /**
    A name the table does not hold gets exactly two lines below the prompt
    echo: the error naming it, then the hint.
   */
  lemma SubmitUnknown(s: State)
    requires Valid(s) && Trim(s.input) != []
    requires Find(Split(Trim(s.input), ' ')[0]).None?
    ensures var line := Trim(s.input); var name := Split(line, ' ')[0];
      Submit(s).scrollback == s.scrollback + Prompt(s.directory, line)
        + [Text(Error, "DefTerm: " + name + ": command not found"), Text(Hint, HelpHint)]
  {
    var line := Trim(s.input);
    TrimKeepsOut(s.input, '\n');
    SplitKeepsOut(line, ' ', '\n');
    NotFoundLines(Split(line, ' ')[0]);
  }

  /**
    Unless the command is `clear`, the scrollback keeps everything it held
    and then shows the two prompt lines, the second holding the trimmed input.
   */
  lemma SubmitEchoesPrompt(s: State)
    requires Trim(s.input) != [] && Split(Trim(s.input), ' ')[0] != Name(Clear)
    ensures var k := |s.scrollback| + 2; var r := Submit(s);
      |r.scrollback| >= k && r.scrollback[..k] == s.scrollback + Prompt(s.directory, Trim(s.input))
  {
    var line := Trim(s.input);
    var name := Split(line, ' ')[0];
    var echoed := s.scrollback + Prompt(s.directory, line);
    var tail: seq<Line>;
    if Find(name).Some? {
      var c := Find(name).value;
      SubmitKnown(s, c);
      tail := Run(c, Split(line, ' ')[1..], Submit(s).history, s.directory, s.files).lines;
    } else {
      tail := NotFound(name);
    }
    assert Submit(s).scrollback == echoed + tail;
    assert (echoed + tail)[..|echoed|] == echoed;
  }

  /**
    Every submitted line other than `clear` adds the two prompt lines and at
    least one line of response: a registered command always prints, and an
    unknown one gets the error and the hint.
   */
  lemma SubmitPrints(s: State)
    requires Trim(s.input) != [] && Split(Trim(s.input), ' ')[0] != Name(Clear)
    ensures |Submit(s).scrollback| >= |s.scrollback| + 3
  {
    var line := Trim(s.input);
    var name := Split(line, ' ')[0];
    if Find(name).Some? {
      var c := Find(name).value;
      SubmitKnown(s, c);
      EveryCommandPrints(c, Split(line, ' ')[1..], Submit(s).history, s.directory, s.files);
    } else {
      AddOutputPrints(Error, "DefTerm: " + name + ": command not found");
    }
  }

  /** `clear` leaves exactly the banner, its own prompt echo included in what is discarded. */
  lemma SubmitClear(s: State)
    requires Trim(s.input) != [] && Split(Trim(s.input), ' ')[0] == Name(Clear)
    ensures Submit(s).scrollback == [Text(Plain, Banner), Text(Plain, HelpHint), Text(Plain, Rule)]
  {
    var line := Trim(s.input);
    FindName(Clear);
    var r := Submit(s);
    var echoed := s.scrollback + Prompt(s.directory, line);
    assert r.scrollback == Apply(Run(Clear, Split(line, ' ')[1..], r.history, s.directory, s.files), echoed);
    ClearLeavesBanner(echoed, Split(line, ' ')[1..], r.history, s.directory, s.files);
  }

  /** A command's name alone is one word naming that command. */
  lemma OneWord(c: Command)
    ensures Split(Name(c), ' ') == [Name(c)] && Find(Name(c)) == Some(c)
  {
    NameIsWord(c);
    WordIsOneLine(Name(c));
    SplitNoSeparator(Name(c), ' ');
    FindName(c);
  }

  /** A command's name typed alone runs that command with no arguments. */
  lemma SubmitNameAlone(s: State, c: Command)
    requires Trim(s.input) == Name(c) && c != Clear
    ensures var r := Submit(s);
      r.scrollback == s.scrollback + Prompt(s.directory, Name(c)) + Run(c, [], r.history, s.directory, s.files).lines
  {
    OneWord(c);
    SubmitKnown(s, c);
  }

  /** A command's name, a space and `t` split into the name and the words of `t`. */
  lemma NameThenWords(c: Command, t: string)
    ensures Split(Name(c) + " " + t, ' ') == [Name(c)] + Split(t, ' ')
  {
    NameIsWord(c);
    WordIsOneLine(Name(c));
    assert Name(c) + " " + t == Name(c) + [' '] + t;
    SplitPiece(Name(c), ' ', t);
  }

  /** A command's name followed by a space runs that command on the words after the space. */
  lemma SubmitWords(s: State, c: Command, t: string)
    requires Trim(s.input) == Name(c) + " " + t && c != Clear
    ensures var r := Submit(s);
      r.scrollback == s.scrollback + Prompt(s.directory, Trim(s.input))
        + Run(c, Split(t, ' '), r.history, s.directory, s.files).lines
  {
    NameThenWords(c, t);
    FindName(c);
    assert Split(Trim(s.input), ' ')[1..] == Split(t, ' ');
    SubmitKnown(s, c);
  }

  /** `cat` typed alone reports the missing operand, below the prompt echo. */
  lemma SubmitCatAlone(s: State)
    requires Trim(s.input) == Name(Cat)
    ensures Submit(s).scrollback == s.scrollback + Prompt(s.directory, Name(Cat)) + [Text(Plain, MissingOperand)]
  {
    CatTyped(s, Cat);
  }

  /** The proof of `SubmitCatAlone`, with the command held in a variable (see `HistoryListing`). */
  lemma CatTyped(s: State, c: Command)
    requires Trim(s.input) == Name(c) && c == Cat
    ensures Submit(s).scrollback == s.scrollback + Prompt(s.directory, Name(c)) + [Text(Plain, MissingOperand)]
  {
    SubmitNameAlone(s, c);
    RunCat([], Submit(s).history, s.directory, s.files);
  }

  /** `cat` followed by anything has an operand, and shows only the notice that it is unfinished. */
  lemma SubmitCatOperand(s: State, t: string)
    requires Trim(s.input) == Name(Cat) + " " + t
    ensures Submit(s).scrollback == s.scrollback + Prompt(s.directory, Trim(s.input))
      + [Text(Plain, InDevelopment("cat"))]
  {
    SubmitWords(s, Cat, t);
    RunCat(Split(t, ' '), Submit(s).history, s.directory, s.files);
  }

  /** `pwd` in the session's directory `~` prints the home path alone. */
  lemma SubmitPwd(s: State)
    requires Valid(s) && Trim(s.input) == Name(Pwd)
    ensures Submit(s).scrollback == s.scrollback + Prompt(s.directory, Name(Pwd)) + [Text(Plain, Home)]
  {
    PwdTyped(s, Pwd);
  }

  /** The proof of `SubmitPwd`, with the command held in a variable (see `HistoryListing`). */
  lemma PwdTyped(s: State, c: Command)
    requires Valid(s) && Trim(s.input) == Name(c) && c == Pwd
    ensures Submit(s).scrollback == s.scrollback + Prompt(s.directory, Name(c)) + [Text(Plain, Home)]
  {
    SubmitNameAlone(s, c);
    PwdLine([], Submit(s).history, s.directory, s.files);
    assert WorkingDirectory(s.directory) == Home;
  }

  /**
    `scrollback` is `above` followed by the `history` listing: line `i`
    below `above` reads `i + 1`, two spaces, then entry `i`.
   */
  predicate ListsHistory(above: seq<Line>, history: seq<string>, scrollback: seq<Line>) {
    && |scrollback| == |above| + |history|
    && scrollback[..|above|] == above
    && forall i :: 0 <= i < |history| ==>
         scrollback[|above| + i] == Text(Plain, NatToString(i + 1) + "  " + history[i])
  }

  /**
    `history` lists the history as it stands once the line itself is
    recorded: one numbered line per entry, oldest first, `history` last.
   */
  lemma SubmitHistory(s: State)
    requires Valid(s) && Trim(s.input) == Name(History)
    ensures var r := Submit(s);
      && ListsHistory(s.scrollback + Prompt(s.directory, Trim(s.input)), r.history, r.scrollback)
      && r.history[|r.history| - 1] == Trim(s.input)
  {
    HistoryListing(s, History);
  }

  /**
    The proof of `SubmitHistory`, with the command held in a variable: given
    the literal `History`, the verifier would spell out its name character by
    character and compare it with every registered name.
   */
  lemma HistoryListing(s: State, c: Command)
    requires Valid(s) && Trim(s.input) == Name(c) && c == History
    ensures var r := Submit(s);
      && ListsHistory(s.scrollback + Prompt(s.directory, Trim(s.input)), r.history, r.scrollback)
      && r.history[|r.history| - 1] == Trim(s.input)
  {
    var r := Submit(s);
    SubmitNameAlone(s, c);
    SubmitValid(s);
    ListingBelow(s.scrollback + Prompt(s.directory, Trim(s.input)), r.history, r.scrollback);
  }

  lemma ListingBelow(above: seq<Line>, history: seq<string>, scrollback: seq<Line>)
    requires scrollback == above + HistoryOutput(history)
    requires |history| > 0 && forall i :: 0 <= i < |history| ==> IsOneLine(history[i])
    ensures ListsHistory(above, history, scrollback)
  {
    HistoryLines(history);
    forall i | 0 <= i < |history|
      ensures scrollback[|above| + i] == Text(Plain, NatToString(i + 1) + "  " + history[i])
    {
      assert scrollback[|above| + i] == HistoryOutput(history)[i];
    }
  }

  /** `echo` with words after it shows those words, exactly as typed, on one line. */
  lemma SubmitEcho(s: State, t: string)
    requires Valid(s) && Trim(s.input) == Name(Echo) + " " + t
    ensures Submit(s).scrollback == s.scrollback + Prompt(s.directory, Trim(s.input)) + [Text(Plain, t)]
  {
    var line := Trim(s.input);
    TrimKeepsOut(s.input, '\n');
    assert '\n' !in t;
    EchoWordsSplit(t);
    FindName(Echo);
    assert Split(line, ' ')[1..] == Split(t, ' ');
    SubmitKnown(s, Echo);
    EchoRun(t, Submit(s).history, s.directory, s.files);
  }

  /** `echo`, a space and `t` split into the name and the words of `t`. */
  lemma EchoWordsSplit(t: string)
    ensures Split(Name(Echo) + " " + t, ' ') == [Name(Echo)] + Split(t, ' ')
  {
    assert Name(Echo) + " " + t == Name(Echo) + [' '] + t;
    SplitPiece(Name(Echo), ' ', t);
  }

  /**
    Words are cut at every single space, so two spaces after `ls` make an
    empty first argument, and `ls` lists the root whatever follows.
   */
  lemma SubmitLsTwoSpaces(s: State, rest: string)
    requires Trim(s.input) == "ls  " + rest
    ensures Submit(s).scrollback == s.scrollback + Prompt(s.directory, "ls  " + rest)
      + FileSystem.Ls(s.files, [])
  {
    var args := [""] + Split(rest, ' ');
    LsTwoSpacesWords(rest);
    FindName(Ls);
    SubmitKnown(s, Ls);
    RunLs(args, Submit(s).history, s.directory, s.files);
    FileSystem.LsRootPath(s.files, args);
  }

  /** `ls`, two spaces and `rest` split into the name, an empty word and the words of `rest`. */
  lemma LsTwoSpacesWords(rest: string)
    ensures Split("ls  " + rest, ' ')[0] == Name(Ls)
    ensures Split("ls  " + rest, ' ')[1..] == [""] + Split(rest, ' ')
  {
    assert "ls  " + rest == Name(Ls) + [' '] + ([] + [' '] + rest);
    SplitPiece([], ' ', rest);
    SplitPiece(Name(Ls), ' ', [] + [' '] + rest);
    assert Split("ls  " + rest, ' ') == [Name(Ls)] + ([""] + Split(rest, ' '));
  }

  /** Typing a line with no break and no outer white space leaves exactly that line to submit. */
  lemma TypedLine(s: State, text: string)
    requires IsOneLine(text) && '\r' !in text
    ensures Type(s, text).input == text && Trim(Type(s, text).input) == text
  {
  }

  // ---------------------------------------------------------------------------
  // Properties of history navigation

  /** ArrowUp then ArrowDown comes back to the entry the cursor was on. */
  lemma UpThenDown(s: State)
    requires Valid(s) && 1 <= s.cursor <= |s.history|
    ensures var r := Navigate(Navigate(s, -1), 1);
      r.cursor == s.cursor && r.input == (if s.cursor < |s.history| then s.history[s.cursor] else "")
  {
  }

  /** At the oldest entry ArrowUp changes nothing more; below the newest, ArrowDown changes nothing more. */
  lemma NavigateStopsAtEnds(s: State)
    requires Valid(s)
    ensures s.cursor <= 0 ==> Navigate(Navigate(s, -1), -1) == Navigate(s, -1)
    ensures s.cursor >= |s.history| - 1 ==> Navigate(Navigate(s, 1), 1) == Navigate(s, 1)
  {
  }

  /** With no history, ArrowUp shows an empty input. */
  lemma UpOnEmptyHistory(s: State)
    requires s.history == []
    ensures Navigate(s, -1).input == "" && Navigate(s, -1).cursor == 0
  {
  }

  /**
    After two different lines `x` and `y` (say `ls` and `tree`) have been
    entered, ArrowUp, ArrowUp, ArrowDown shows `y`, then `x`, then `y` again.
   */
  lemma UpUpDown(s: State, x: string, y: string)
    requires s.history == [x, y] && s.cursor == 2
    ensures var up := HandleKey(s, ArrowUp);
      var upUp := HandleKey(up, ArrowUp);
      var r := HandleKey(upUp, ArrowDown);
      && up.input == y && upUp.input == x
      && r.input == y && r.cursor == 1
  {
  }

  /** Two different lines entered in a fresh session leave both in the history, the cursor past them. */
  lemma EnterTwo(s: State, x: string, y: string)
    requires s.history == [] && x != y
    requires IsOneLine(x) && IsOneLine(y) && '\r' !in x && '\r' !in y
    ensures var r := Submit(Type(Submit(Type(s, x)), y));
      r.history == [x, y] && r.cursor == 2
  {
    SubmitTyped(s, x);
    var b := Submit(Type(s, x));
    SubmitTyped(b, y);
  }

  /** Typing a one-line `x` and pressing Enter records `x`. */
  lemma SubmitTyped(s: State, x: string)
    requires IsOneLine(x) && '\r' !in x
    ensures var r := Submit(Type(s, x));
      r.history == Record(s.history, x) && r.cursor == |r.history| && r.input == ""
  {
    TypedLine(s, x);
  }

  // ---------------------------------------------------------------------------
  // Properties of the history

  /** Recording the same line twice in a row records it once. */
  lemma RecordTwice(history: seq<string>, line: string)
    ensures Record(Record(history, line), line) == Record(history, line)
  {
  }

  /** A line entered twice in a row is recorded once. */
  lemma SubmitSameLineTwice(s: State)
    requires '\n' !in s.input && '\r' !in s.input && Trim(s.input) != []
    ensures var r := Submit(s);
      Submit(Type(r, s.input)).history == r.history
  {
    var r := Submit(s);
    RecordTwice(s.history, Trim(s.input));
  }

  /** Non-adjacent repeats are kept: `help`, `ls`, `help` adds three entries. */
  lemma RecordAlternating(history: seq<string>, x: string, y: string)
    requires x != y
    ensures var r := Record(Record(Record(history, x), y), x);
      |r| >= 3 && r[|r| - 3..] == [x, y, x]
  {
  }

  // ---------------------------------------------------------------------------
  // Properties of completion

  /** One match: the input becomes the only registered name that starts with the typed prefix. */
  lemma CompleteSingle(s: State)
    requires |Matches(Trim(s.input))| == 1
    ensures var r := Complete(s); var p := Trim(s.input);
      && r.input in CommandNames && StartsWith(r.input, p)
      && (forall x :: x in CommandNames && StartsWith(x, p) ==> x == r.input)
      && r.scrollback == s.scrollback
  {
    var m := Matches(Trim(s.input));
    OnlyMatch(m, CommandNames, Trim(s.input));
  }

  lemma OnlyMatch(m: seq<string>, names: seq<string>, prefix: string)
    requires |m| == 1 && forall x :: x in m <==> x in names && StartsWith(x, prefix)
    ensures m[0] in names && StartsWith(m[0], prefix)
    ensures forall x :: x in names && StartsWith(x, prefix) ==> x == m[0]
  {
    assert m[0] in m;
    assert m == [m[0]];
  }

  /** Lower-case words joined with two spaces read as one line. */
  lemma JoinedWordsOneLine(words: seq<string>)
    requires |words| >= 1 && forall i :: 0 <= i < |words| ==> IsLowerWord(words[i])
    ensures IsOneLine(Join(words, "  "))
  {
    forall i | 0 <= i < |words| ensures IsOneLine(words[i]) {
      WordIsOneLine(words[i]);
    }
    JoinOneLine(words, "  ");
  }

  /** Several matches: they are listed on one informational line, two spaces apart, and the input stays. */
  lemma CompleteMany(s: State)
    requires |Matches(Trim(s.input))| > 1
    ensures var r := Complete(s); var m := Matches(Trim(s.input));
      && r.input == s.input
      && r.scrollback == s.scrollback + [Text(Info, Join(m, "  "))]
  {
    var m := Matches(Trim(s.input));
    forall i | 0 <= i < |m| ensures IsLowerWord(m[i]) {
      assert m[i] in m;
      ListedIsWord(m[i]);
    }
    JoinedWordsOneLine(m);
    SingleLine(Info, Join(m, "  "));
  }

  /** No match: nothing changes. */
  lemma CompleteNone(s: State)
    requires forall x :: x in CommandNames ==> !StartsWith(x, Trim(s.input))
    ensures Complete(s) == s
  {
    MatchingNone(CommandNames, Trim(s.input));
  }

  /** Tab after `pw` completes to `pwd`. */
  lemma TabPw(s: State)
    requires Trim(s.input) == "pw"
    ensures Complete(s).input == "pwd"
  {
    MatchesPw();
  }

  /**
    The four `c` names joined by two spaces, proved apart from any session
    state: next to `Complete`'s unfolding the same equation is far costlier.
   */
  lemma JoinedC()
    ensures Join(["cd", "cat", "contact", "clear"], "  ") == "cd  cat  contact  clear"
  {
  }

  /** Tab after `c` lists `cd`, `cat`, `contact` and `clear`, in that order, on one line. */
  lemma TabC(s: State)
    requires Trim(s.input) == "c"
    ensures Complete(s).input == s.input
    ensures Complete(s).scrollback == s.scrollback + [Text(Info, "cd  cat  contact  clear")]
  {
    MatchesC();
    CompleteMany(s);
    JoinedC();
  }

  /** Tab on an empty input lists every command, in registration order, on one line. */
  lemma TabOnEmpty(s: State)
    requires Trim(s.input) == ""
    ensures Complete(s).scrollback == s.scrollback + [Text(Info, Join(CommandNames, "  "))]
  {
    MatchesEverything();
    NamesOfTable();
    CompleteMany(s);
  }
}

=== FILE: strings.dfy ===
/**
  String helpers that mirror the JavaScript built-ins the terminal relies on:
  `String.prototype.trim`, `split` with a one-character separator,
  `Array.prototype.join`, `startsWith`, the default string order used by
  `Array.prototype.sort`, and decimal rendering of a natural number.
 */
module Strings {

  /** The code points JavaScript's `trim` removes: WhiteSpace and LineTerminator. */
  predicate IsSpace(c: char) {
    || c == ' ' || c == '\t' || c == '\n' || c == '\r'
    || c == '\U{000B}' || c == '\U{000C}' || c == '\U{00A0}' || c == '\U{FEFF}'
    || c == '\U{1680}' || ('\U{2000}' <= c <= '\U{200A}')
    || c == '\U{2028}' || c == '\U{2029}' || c == '\U{202F}' || c == '\U{205F}'
    || c == '\U{3000}'
  }

  /** Every character is white space (vacuously true of ""). */
  predicate IsBlank(s: string) {
    forall i :: 0 <= i < |s| ==> IsSpace(s[i])
  }

  /** Neither end of `s` is white space. */
  predicate IsTrimmed(s: string) {
    s == [] || (!IsSpace(s[0]) && !IsSpace(s[|s| - 1]))
  }

  function TrimStart(s: string): (r: string)
    ensures |r| <= |s| && r == s[|s| - |r|..]
    ensures IsBlank(s[..|s| - |r|])
    ensures r == [] || !IsSpace(r[0])
    ensures r == [] <==> IsBlank(s)
  {
    if s != [] && IsSpace(s[0]) then
      assert IsBlank(s) <==> IsBlank(s[1..]) by {
        assert forall i :: 0 < i < |s| ==> s[i] == s[1..][i - 1];
      }
      TrimStart(s[1..])
    else s
  }

  function TrimEnd(s: string): (r: string)
    ensures |r| <= |s| && r == s[..|r|]
    ensures IsBlank(s[|r|..])
    ensures r == [] || !IsSpace(r[|r| - 1])
    ensures r == [] <==> IsBlank(s)
  {
    if s != [] && IsSpace(s[|s| - 1]) then
      var t := s[..|s| - 1];
      assert s == t + [s[|s| - 1]];
      var r := TrimEnd(t);
      assert IsBlank(s) <==> IsBlank(t) by {
        assert forall i :: 0 <= i < |t| ==> s[i] == t[i];
      }
      assert s[|r|..] == t[|r|..] + [s[|s| - 1]];
      r
    else s
  }

  /** JavaScript's `s.trim()`. */
  function Trim(s: string): (r: string)
    ensures IsTrimmed(r)
    ensures r == [] <==> IsBlank(s)
    ensures IsTrimmed(s) ==> r == s
    ensures |r| <= |s|
  {
    TrimEnd(TrimStart(s))
  }

  /**
    `Trim` cuts a blank run off each end and keeps what lies between; with
    `IsTrimmed` this fixes the result.
   */
  lemma TrimIsSlice(s: string)
    ensures exists i, j :: 0 <= i <= j <= |s| && Trim(s) == s[i..j] && IsBlank(s[..i]) && IsBlank(s[j..])
  {
    var a := TrimStart(s);
    var r := TrimEnd(a);
    var i := |s| - |a|;
    assert a == s[i..];
    assert r == s[i..i + |r|] by {
      SuffixSlices(s, i, |r|);
    }
    assert IsBlank(s[i + |r|..]) by {
      SuffixSlices(s, i, |r|);
    }
    assert Trim(s) == r;
  }

  /** Slicing a suffix is slicing the whole, offset by where the suffix starts. */
  lemma SuffixSlices<T>(s: seq<T>, i: nat, k: nat)
    requires i + k <= |s|
    ensures s[i..][..k] == s[i..i + k] && s[i..][k..] == s[i + k..]
  {
  }

  /** Removing blank characters from the front does not change the trimmed start. */
  lemma {:induction false} TrimStartBlankPrefix(a: string, x: string)
    requires IsBlank(a)
    ensures TrimStart(a + x) == TrimStart(x)
  {
    if a != [] {
      var ax := a + x;
      assert ax[0] == a[0] && ax[1..] == a[1..] + x;
      assert TrimStart(ax) == TrimStart(a[1..] + x);
      assert IsBlank(a[1..]) by {
        assert forall i :: 0 <= i < |a| - 1 ==> a[1..][i] == a[i + 1];
      }
      TrimStartBlankPrefix(a[1..], x);
    } else {
      assert a + x == x;
    }
  }

  /** Once a non-blank start is found, whatever follows is kept verbatim. */
  lemma {:induction false} TrimStartAppend(m: string, b: string)
    requires !IsBlank(m)
    ensures TrimStart(m + b) == TrimStart(m) + b
  {
    if IsSpace(m[0]) {
      assert (m + b)[1..] == m[1..] + b;
      TrimStartAppend(m[1..], b);
    }
  }

  lemma {:induction false} TrimEndBlankSuffix(x: string, b: string)
    requires IsBlank(b)
    ensures TrimEnd(x + b) == TrimEnd(x)
  {
    if b != [] {
      assert (x + b)[..|x + b| - 1] == x + b[..|b| - 1];
      TrimEndBlankSuffix(x, b[..|b| - 1]);
    } else {
      assert x + b == x;
    }
  }

  /** White space on either side of `m` is invisible to `Trim`. */
  lemma TrimBlankEnds(a: string, m: string, b: string)
    requires IsBlank(a) && IsBlank(b)
    ensures Trim(a + m + b) == Trim(m)
  {
    assert a + m + b == a + (m + b);
    TrimStartBlankPrefix(a, m + b);
    if IsBlank(m) {
      assert IsBlank(m + b);
      assert TrimStart(m) == [];
    } else {
      TrimStartAppend(m, b);
      TrimEndBlankSuffix(TrimStart(m), b);
    }
  }

  /** Trimming only removes characters, so a character absent before is absent after. */
  lemma TrimKeepsOut(s: string, c: char)
    requires c !in s
    ensures c !in Trim(s)
  {
    var a := TrimStart(s);
    assert a == s[|s| - |a|..];
    assert c !in a;
    var b := TrimEnd(a);
    assert b == a[..|b|];
  }

  /** JavaScript's `parts.join(sep)`: the empty array joins to "". */
  function Join(parts: seq<string>, sep: string): string {
    if |parts| == 0 then ""
    else if |parts| == 1 then parts[0]
    else parts[0] + sep + Join(parts[1..], sep)
  }

  /**
    JavaScript's `s.split(c)` for a one-character separator `c`: every
    occurrence of `c` cuts, so adjacent separators yield empty pieces and the
    result is never empty.
   */
  function Split(s: string, c: char): (parts: seq<string>)
    ensures |parts| >= 1
    ensures forall i :: 0 <= i < |parts| ==> c !in parts[i]
    ensures Join(parts, [c]) == s
  {
    if s == [] then [""]
    else if s[0] == c then
      var rest := Split(s[1..], c);
      assert s == [c] + s[1..];
      [""] + rest
    else
      var rest := Split(s[1..], c);
      var parts := [[s[0]] + rest[0]] + rest[1..];
      assert parts[1..] == rest[1..];
      parts
  }

  /** A piece with no separator, followed by the separator, is split off intact. */
  lemma {:induction false} SplitPiece(p: string, c: char, t: string)
    requires c !in p
    ensures Split(p + [c] + t, c) == [p] + Split(t, c)
  {
    if p == [] {
      assert p + [c] + t == [c] + t;
      assert ([c] + t)[1..] == t;
    } else {
      assert (p + [c] + t)[1..] == p[1..] + [c] + t;
      SplitPiece(p[1..], c, t);
      assert [p[0]] + p[1..] == p;
    }
  }

  lemma {:induction false} SplitNoSeparator(p: string, c: char)
    requires c !in p
    ensures Split(p, c) == [p]
  {
    if p != [] {
      SplitNoSeparator(p[1..], c);
      assert [p[0]] + p[1..] == p;
    }
  }

  /** Splitting undoes joining when no piece contains the separator. */
  lemma {:induction false} SplitJoin(parts: seq<string>, c: char)
    requires |parts| >= 1
    requires forall i :: 0 <= i < |parts| ==> c !in parts[i]
    ensures Split(Join(parts, [c]), c) == parts
  {
    if |parts| == 1 {
      SplitNoSeparator(parts[0], c);
    } else {
      SplitJoin(parts[1..], c);
      SplitPiece(parts[0], c, Join(parts[1..], [c]));
    }
  }

  /** A text that does not start with the separator starts its first piece. */
  lemma SplitHead(s: string, c: char)
    requires s != [] && s[0] != c
    ensures Split(s, c)[0] != [] && Split(s, c)[0][0] == s[0]
  {
  }

  /** Prefixing the first part prefixes the join. */
  lemma JoinPrefix(p: string, parts: seq<string>, sep: string)
    requires |parts| >= 1
    ensures Join([p + parts[0]] + parts[1..], sep) == p + Join(parts, sep)
  {
    var q := [p + parts[0]] + parts[1..];
    if |parts| > 1 {
      assert q[1..] == parts[1..];
    }
  }

  /** Suffixing the last part suffixes the join. */
  lemma {:induction false} JoinSuffix(parts: seq<string>, x: string, sep: string)
    requires |parts| >= 1
    ensures Join(parts[..|parts| - 1] + [parts[|parts| - 1] + x], sep) == Join(parts, sep) + x
  {
    var q := parts[..|parts| - 1] + [parts[|parts| - 1] + x];
    if |parts| > 1 {
      var tail := parts[1..];
      assert q[0] == parts[0];
      assert q[1..] == tail[..|tail| - 1] + [tail[|tail| - 1] + x];
      JoinSuffix(tail, x, sep);
    }
  }

  /** Splitting only cuts, so a character absent from `s` is absent from every piece. */
  lemma {:induction false} SplitKeepsOut(s: string, c: char, d: char)
    requires d !in s
    ensures forall i :: 0 <= i < |Split(s, c)| ==> d !in Split(s, c)[i]
  {
    if s != [] {
      assert d !in s[1..];
      SplitKeepsOut(s[1..], c, d);
    }
  }

  /** Joining keeps out a line feed that neither the parts nor the separator hold. */
  lemma {:induction false} JoinNoNewline(parts: seq<string>, sep: string)
    requires '\n' !in sep
    requires forall i :: 0 <= i < |parts| ==> '\n' !in parts[i]
    ensures '\n' !in Join(parts, sep)
  {
    if |parts| > 1 {
      JoinNoNewline(parts[1..], sep);
    }
  }

  /** Joining with `sep` puts `|parts| - 1` copies of `sep` between the parts. */
  lemma {:induction false} JoinCons(p: string, parts: seq<string>, sep: string)
    requires |parts| >= 1
    ensures Join([p] + parts, sep) == p + sep + Join(parts, sep)
  {
    assert ([p] + parts)[1..] == parts;
  }

  /** The first character of a join of non-empty pieces is the first piece's. */
  lemma {:induction false} JoinEnds(parts: seq<string>, sep: string)
    requires |parts| >= 1
    requires forall i :: 0 <= i < |parts| ==> parts[i] != []
    ensures Join(parts, sep) != []
    ensures Join(parts, sep)[0] == parts[0][0]
    ensures var j := Join(parts, sep); j[|j| - 1] == parts[|parts| - 1][|parts[|parts| - 1]| - 1]
  {
    if |parts| > 1 {
      JoinEnds(parts[1..], sep);
    }
  }

  /** `StartsWith(s, p)` is JavaScript's `s.startsWith(p)`. */
  predicate StartsWith(s: string, p: string) {
    |p| <= |s| && s[..|p|] == p
  }

  /**
    The order of JavaScript's default `sort` on strings: lexicographic by
    character, a proper prefix first.
   */
  predicate LexLe(a: string, b: string) {
    a == [] || (b != [] && (a[0] < b[0] || (a[0] == b[0] && LexLe(a[1..], b[1..]))))
  }

  lemma {:induction false} LexLeTotal(a: string, b: string)
    ensures LexLe(a, b) || LexLe(b, a)
  {
    if a != [] && b != [] && a[0] == b[0] {
      LexLeTotal(a[1..], b[1..]);
    }
  }

  lemma {:induction false} LexLeAntisymmetric(a: string, b: string)
    requires LexLe(a, b) && LexLe(b, a)
    ensures a == b
  {
    if a != [] {
      LexLeAntisymmetric(a[1..], b[1..]);
      assert a == [a[0]] + a[1..] && b == [b[0]] + b[1..];
    }
  }

  lemma {:induction false} LexLeTransitive(a: string, b: string, c: string)
    requires LexLe(a, b) && LexLe(b, c)
    ensures LexLe(a, c)
  {
    if a != [] && a[0] == b[0] && b[0] == c[0] {
      LexLeTransitive(a[1..], b[1..], c[1..]);
    }
  }

  function DigitChar(d: nat): (c: char)
    requires d < 10
    ensures '0' <= c <= '9'
  {
    "0123456789"[d]
  }

  /** The value of a string of decimal digits. */
  function DigitsValue(s: string): nat
    requires forall i :: 0 <= i < |s| ==> '0' <= s[i] <= '9'
  {
    if s == [] then 0
    else DigitsValue(s[..|s| - 1]) * 10 + (s[|s| - 1] as int - '0' as int)
  }

  /** JavaScript's `String(n)` for a natural number: decimal, no leading zeros. */
  function NatToString(n: nat): (r: string)
    ensures r != []
    ensures forall i :: 0 <= i < |r| ==> '0' <= r[i] <= '9'
    ensures r[0] != '0' || n == 0
    ensures DigitsValue(r) == n
  {
    if n < 10 then
      var r := [DigitChar(n)];
      assert r[..0] == [];
      r
    else
      var h := NatToString(n / 10);
      var r := h + [DigitChar(n % 10)];
      assert r[..|r| - 1] == h;
      r
  }
}

=== FILE: wrappers.dfy ===
/** The optional value the model uses where the source returns `null` or `undefined`. */
module Wrappers {

  datatype Option<+T> = None | Some(value: T)
}
